=== FILE: README.md ===
# Prompt-driven chat assistant: a Dafny model of its core

The system is a loyalty-programme chat assistant. A browser page sends the
user's questions to an Express backend. The backend picks one of several
system prompts, joins it with the question, asks a text generator for an
answer, counts usage per prompt and appends each answered question to a
spreadsheet. This project models that core and proves properties of it.

- `PromptManager` (prompt_manager.dfy) is the prompt registry of
  utils/promptManager.js. It holds the prompt table, the current prompt,
  the append-only switch history, custom-prompt registration and the
  registration check (length bounds and forbidden words).
- `PromptSecurity` (prompt_security.dfy) is the four-part screen of
  utils/promptSecurity.js: forbidden phrases, injection patterns,
  sensitive terms and bypass vocabulary. Its regular expressions are
  modelled by a small matcher (`Pattern`, pattern.dfy) of literal
  characters and `\s*` / `\s+` runs. The matcher matches on the lowered
  text, which is what the `i` flag means for these patterns.
- `PromptMonitoring` (prompt_monitoring.dfy) is the per-prompt usage
  table of utils/promptMonitoring.js. It keeps usage count, total
  response time and success and error counts, and derives averages and
  rates from them.
- `Server` (server.dfy) covers the following parts of backend/server.js:
  - the `getSystemPrompt` middleware;
  - `validateRequest`;
  - the outcome logic of `generateGeminiResponse`;
  - the `/api/chat`, `/api/prompts/switch` and `/api/prompts/custom`
    handlers, together with the global error handler's 500 response.

  The generator call is an abstract `Outcome`. Clock readings are
  parameters. The spreadsheet append is an emitted `AuditEvent`.
- `ClientFormat` (client_format.dfy) is the page's `formatMessage`. That
  is five regular-expression replacements in sequence: bold, italic,
  line breaks, bullet lines and numbered lines.
- `ClientChat` (client_chat.dfy) covers the rest of the page:
  - the offline keyword reply `generateLocalResponse`;
  - the counter and limit logic of `sendMessage`, `getAIResponse` and
    `showLimitPage`, as a state machine over three events: the user
    sending, the typing timer firing, and the backend request settling.

  script-prompts.js and script-backend.js carry the same code for these
  functions. The formatter is at script-prompts.js:382-389 and
  script-backend.js:268-275. The local reply is at 325-356 and 211-242.
  The send logic is at 215-277 and 114-170. The table below cites the
  script-prompts.js copy.
- `Text` (text.dfy) and `Base` (base.dfy) hold the JavaScript string and
  value semantics everything else relies on:
  - `toLowerCase` for ASCII and Cyrillic letters;
  - the exact `\s` / `trim` white-space set;
  - `includes`, `indexOf`, `replace` with a string pattern;
  - truthiness and `Number.isInteger`.

String lengths are lengths in characters.

Where the code and the documented design of the system disagree, the model
follows the code:
- A custom prompt is stored without passing the security screen
  (`Server.ScreenNotConsulted`).
- Registering an id that already exists replaces the old prompt; it is not
  refused (`PromptManager.CreateCustomPrompt`).
- The chat request switches the current prompt and logs the switch before
  the request body is validated, so a rejected request still adds a
  history entry (`Server.Handle`).
- An empty message is refused as missing; the "too short" error can never
  be produced (`Server.ValidateRequest`).
- Only successful generations are written to the audit log
  (`Server.Handle`).
- A failed generation records no metric (see Findings).
- The prompt listing comes in table order. Ordering of integer-like keys
  is not modelled (see "Left out").

## Model

| member | source | states |
|---|---|---|
| Text.LowerChar | utils/promptManager.js:78 | lowering keeps white space, digits and non-letters below U+0400, and maps each ASCII capital A-Z to its small letter (+32), Cyrillic U+0410-U+042F to U+0430-U+044F (+32) and U+0400-U+040F to U+0450-U+045F (+80), so the Cyrillic forbidden words and keywords match |
| Text.LowerIdempotent | utils/promptSecurity.js:34 | lowering an already lowered text changes nothing |
| Text.Trim | script-prompts.js:216 | no contract of its own; TrimSpec states it: the input with white space cut from the front and the back and nothing else removed, empty exactly on all-white-space input, with non-white-space ends |
| Text.TrimSpec | script-prompts.js:216 | the trimmed text is the input with only white space dropped: some prefix and some suffix of the input, both all white space, are cut and the rest is kept. It is empty exactly when the input is all white space, and neither of its ends is white space |
| Text.IsSpace | script-prompts.js:216 | no contract of its own: the ECMAScript WhiteSpace and LineTerminator characters, the set `trim` removes and `\s` matches. Its use is stated by TrimSpec, Pattern.StarSkipsSpaces and Pattern.PlusNeedsSpace |
| Text.Occurs | utils/promptManager.js:78 | no contract of its own: `includes`, some position where the word starts. Text.IndexOf finds the first such position and returns `None` exactly when Occurs is false |
| Text.IndexOf | utils/promptMonitoring.js:47 | the position found is the first occurrence of the pattern, and `None` means the pattern occurs nowhere |
| Text.ReplaceFirst | utils/promptMonitoring.js:47 | a pattern that does not occur leaves the text unchanged |
| Pattern.MatchesPrefix | utils/promptSecurity.js:53 | no contract of its own: a match of the pattern at the start of the text, backtracking over `\s*`. LiteralThen, StarSkipsSpaces and PlusNeedsSpace state how each token matches |
| Pattern.Search | utils/promptSecurity.js:72 | no contract of its own: `test` on an unanchored pattern, a match at some position. SearchLiteral relates it to `includes`, and SearchInfix says a match in a piece is a match in the whole |
| Pattern.SearchLiteral | utils/promptSecurity.js:64 | a regex of plain characters matches exactly when the text includes that word |
| Pattern.StarSkipsSpaces | utils/promptSecurity.js:45 | `\s*` accepts any run of white space, including none |
| Pattern.PlusNeedsSpace | utils/promptSecurity.js:66 | `\s+` after a word matches only if a white-space character follows the word |
| PromptSecurity.Hits | utils/promptSecurity.js:52-54 | the filter keeps, in list order and once each, exactly the patterns that match |
| PromptSecurity.HitsCountMatches | utils/promptSecurity.js:52-54 | the filter's result has one entry per matching pattern |
| PromptSecurity.CheckPatterns | utils/promptSecurity.js:43-60 | a pattern check reports issues exactly when some pattern matches the text, ignoring case, and reports one fixed issue per matching pattern |
| PromptSecurity.CheckForbiddenWords | utils/promptSecurity.js:24-41 | the phrase check reports one issue per listed phrase found, and has issues exactly when that list is non-empty |
| PromptSecurity.NamePhrases | utils/promptSecurity.js:39 | each reported issue names the phrase that was found |
| PromptSecurity.ForbiddenIssueNamesPhrase | utils/promptSecurity.js:39 | distinct phrases give distinct issue texts |
| PromptSecurity.ForbiddenCheckIffIncludes | utils/promptSecurity.js:33-35 | a phrase's issue is reported exactly when the lowered prompt includes the phrase |
| PromptSecurity.ValidatePrompt | utils/promptSecurity.js:2-22 | the verdict is valid exactly when no issue is found; the issues are those of the four checks, in check order |
| PromptSecurity.ScreenIssueBound | utils/promptSecurity.js:3-16 | at most 20 issues are reported, five per check |
| PromptSecurity.ScreenValidIffNotSuspicious | utils/promptSecurity.js:2-22 | the screen accepts exactly the prompts in which no phrase or pattern occurs, ignoring case (an independent definition) |
| PromptSecurity.SuspiciousInfix | utils/promptSecurity.js:2-22 | a suspicious piece makes the whole prompt suspicious |
| PromptSecurity.ScreenMonotone | utils/promptSecurity.js:2-22 | every piece of an accepted prompt is accepted |
| PromptSecurity.SpaceBeforeColonIsInjection | utils/promptSecurity.js:45 | `system` in any letter case, then any run of white space, then a colon, is reported as an injection |
| PromptSecurity.KeyPhrasesNeedSpace | utils/promptSecurity.js:66-67 | a match of `private\s+key` starts with "private" and has a white-space character right after it; likewise `api\s+key` after "api" |
| PromptSecurity.PlainSensitiveWords | utils/promptSecurity.js:64-68 | `password`, `secret` and `token` match exactly when the lowered text includes them |
| PromptSecurity.BenignPromptAccepted | utils/promptSecurity.js:2-22 | a prompt in which no character can start a phrase or pattern passes all four checks |
| PromptSecurity.OverridePhraseRejected | utils/promptSecurity.js:24-41 | "ignore previous instructions", in any letter case and anywhere in the prompt, makes the screen fail and be reported by name |
| PromptManager.Init | utils/promptManager.js:4-7 | a new registry has the built-in table, the default prompt current, and an empty history |
| PromptManager.SetPrompt | utils/promptManager.js:15-27 | a known id succeeds, makes that prompt current and appends exactly one (previous id, requested id, time) entry; an unknown id fails and changes nothing |
| PromptManager.SetPromptKeepsValid | utils/promptManager.js:15-27 | switching keeps the key order in step with the table |
| PromptManager.HistoryCountsSwitches | utils/promptManager.js:18-22 | over any sequence of switches, the history keeps its old entries and grows by one per known id, re-activations included |
| PromptManager.GetAvailablePrompts | utils/promptManager.js:30-37 | the listing has one summary per table entry, in table (insertion) order: the j-th summary is that of the j-th key |
| PromptManager.CreateCustomPrompt | utils/promptManager.js:45-57 | registration stores a version "1.0.0" custom prompt under its id, replacing any existing entry, and leaves the current prompt and history alone |
| PromptManager.CustomThenActivate | utils/promptManager.js:45-57 | a prompt just registered can be switched to at once and is then current |
| PromptManager.CustomPromptListed | utils/promptManager.js:30-57 | a registered prompt appears in the listing, which grows by one exactly when the id was new |
| PromptManager.ValidatePromptText | utils/promptManager.js:60-89 | each issue is reported exactly when its condition holds (empty, under 50, over 10000, forbidden word); valid means no issues; issues are distinct and at most two, in the order the source pushes them: "not a string" first, the forbidden-word issue last |
| PromptManager.ValidatePrompt | utils/promptManager.js:60-89 | a non-string prompt makes the check throw (no verdict); a string gets the text check's verdict |
| PromptManager.NoCyrillicNoForbiddenWord | utils/promptManager.js:76-79 | text without Cyrillic letters never contains a forbidden word, because every forbidden word is Cyrillic |
| PromptMonitoring.TrackPromptUsage | utils/promptMonitoring.js:7-26 | recording adds one use and the response time to the prompt's record, plus one success or one error, creates the record if missing, and leaves other records alone |
| PromptMonitoring.TrackKeepsValid | utils/promptMonitoring.js:7-26 | every record keeps usage = successes + errors, with usage above zero |
| PromptMonitoring.GetPromptStats | utils/promptMonitoring.js:29-41 | stats exist exactly when the prompt has a record; they give its usage, its total time and success count divided by usage, and success and error rates that sum to 1 |
| PromptMonitoring.StripKey | utils/promptMonitoring.js:47 | removing the "prompt_" prefix and adding it back gives the original key |
| PromptMonitoring.GetAllMetrics | utils/promptMonitoring.js:44-50 | there is one entry per key, each equal to that prompt's stats |
| PromptMonitoring.BumpCommutes | utils/promptMonitoring.js:16-23 | two updates of one record give the same result in either order |
| PromptMonitoring.TrackCommutes | utils/promptMonitoring.js:7-26 | two recordings give the same table in either order |
| PromptMonitoring.MoveToFront | utils/promptMonitoring.js:7-26 | a recording can be moved to the front of a run without changing the final table |
| PromptMonitoring.OrderIndependent | utils/promptMonitoring.js:7-26 | any two runs with the same recordings, in whatever interleaving, give the same table |
| PromptMonitoring.TrackAllTally | utils/promptMonitoring.js:7-26 | after a run, a prompt's usage, successes, errors and total time are its old values plus its share of the run |
| PromptMonitoring.SuccessesAtMostCalls | utils/promptMonitoring.js:19-23 | successes never exceed uses |
| PromptMonitoring.SuccessRateOfRun | utils/promptMonitoring.js:29-41 | N successes and M failures for one prompt give usage N+M and success rate N/(N+M), in any order |
| PromptMonitoring.TrackAllValid | utils/promptMonitoring.js:7-26 | any run keeps every record consistent |
| Server.ValidateRequest | backend/server.js:180-202 | no errors exactly when the message is a string of 1..1000 characters and the counter is absent or an integer in 1..1000; at most one error per field, each exactly when its condition holds, the message error first and the counter error last; "too short" never appears |
| Server.ResolveId | backend/server.js:20 | the X-Prompt-ID header is used when non-empty, otherwise "JKU_ASSISTANT"; the id is never empty |
| Server.AuditCount | backend/server.js:267 | the logged counter is the request's counter, 1 when it is absent, and lies in 1..1000 |
| Server.Handle | backend/server.js:256-298 | unknown id: 400 with the prompt list and no state change. Known id: switched and logged, even when the body is invalid. Invalid body: 400 with the errors. The generator runs exactly for a known id and valid body, on prompt text + marker + message. 200 with the reply exactly when it answers with text, and then an audit row (the counter, or 1 when absent; the message; the reply). Otherwise 500 with the fixed fallback. Metrics are touched only when the generator runs |
| Server.Chat | backend/server.js:162-176 | as written: a failed generation leaves the metrics unchanged; an answered one adds one use and one success to the prompt |
| Server.ChatIntended | backend/server.js:170-173 | corrected: every generator call records exactly one use, a success or a failure, and nothing else records |
| Server.HandleKeepsInvariants | backend/server.js:19-32 | every chat request keeps the registry's and the metrics' invariants |
| Server.HelloEndToEnd | backend/server.js:256-298 | "hello" with counter 1 and the generator answering "hi there" gives 200 {reply: "hi there"}, the audit row (1, "hello", "hi there"), and one more use and success |
| Server.TimeoutAsWritten | backend/server.js:101-177 | a timeout on a valid request gives 500 with the fallback reply, no audit row, and no new error count |
| Server.TimeoutIntended | backend/server.js:170-175 | under the corrected failure path the same timeout adds one use and one error |
| Server.Switch | backend/server.js:214-229 | a known id: 200 with the new current prompt and one history entry. The prompt table and its order stay as they were. Otherwise: 400 "Промпт не найден" and nothing changes. Metrics are untouched |
| Server.CreateCustom | backend/server.js:232-245 | non-string prompt: 500 from the error handler, nothing changes. A string prompt is stored (200, the new custom prompt) exactly when it has 50..10000 characters and no forbidden word. A new id goes to the end of the key order; an existing id keeps its place. Otherwise 400 with the issues and nothing changes |
| Server.ShortPromptRejected | backend/server.js:232-245 | a prompt under 50 characters is refused for its length whatever its content |
| Server.ScreenNotConsulted | backend/server.js:232-245 | a prompt the security screen rejects (the override phrase) is still registered |
| ClientFormat.FormatMessage | script-prompts.js:382-389 | the output never holds a newline. Its cases are stated by PlainTextUnchanged, TagLineKept, BulletLineListed, NumberedLineListed, BoldBeforeItalic, BreakJoin, BulletAfterNewlineKept and NumberedAfterNewlineKept |
| ClientFormat.ReplacePairs | script-prompts.js:384-385 | no contract of its own. NoPairLeft states the all-inputs property: no pair is left afterwards. Special cases: text without the delimiter is unchanged (NoDelimiterUnchanged), a single pair on one line becomes the tagged content (WholePair), and bold is rewritten before italic (BoldBeforeItalic) |
| ClientFormat.NoPairLeft | script-prompts.js:384-385 | for any text, after a pair rule has run with a delimiter made of one repeated character (`**`, `*`) and tags free of that character, no delimiter is left that would open a pair closing on the same line |
| ClientFormat.BoldLeavesNoPair | script-prompts.js:384-385 | for any text, the bold rule leaves no `**` pair, so the italic rule never sees one |
| ClientFormat.RewriteLines | script-prompts.js:387-388 | no contract of its own. A single line is rewritten by the line rule alone (SingleLine), and no newline is added (RewriteLinesNoNewline) |
| ClientFormat.RewriteLine | script-prompts.js:387-388 | no contract of its own. A "- " line becomes a list item (BulletLineListed), a numbered line becomes a list item with its number (NumberedLineListed), and a line starting with a tag is left alone (TagLineKept) |
| ClientFormat.FindClose | script-prompts.js:384 | the closing delimiter found lies within the text |
| ClientFormat.FindCloseSpec | script-prompts.js:384 | the lazy group closes at the earliest delimiter on the same line; with no close found, every later delimiter lies beyond a line break |
| ClientFormat.Breaks | script-prompts.js:386 | after the newline replacement no newline is left |
| ClientFormat.DigitRun | script-prompts.js:388 | the leading digit run is all digits and stops at a non-digit |
| ClientFormat.NumberedLineSpec | script-prompts.js:388 | a line counts as numbered exactly when some non-empty digit prefix is followed by ". " (backtracking finds no other split) |
| ClientFormat.LineEnd | script-prompts.js:387-388 | the line ends at the first line terminator |
| ClientFormat.NoDelimiterUnchanged | script-prompts.js:384-385 | text without `*` is untouched by the bold and italic rules |
| ClientFormat.WholePair | script-prompts.js:384 | a delimited single-line run becomes open tag + content + close tag |
| ClientFormat.FormatHasNoNewline | script-prompts.js:382-389 | formatted output never contains a newline |
| ClientFormat.PlainTextUnchanged | script-prompts.js:382-389 | a single plain line that does not start a list item comes out unchanged |
| ClientFormat.TagLineKept | script-prompts.js:387-388 | a line already starting with a tag is left alone by both list rules |
| ClientFormat.BulletLineListed | script-prompts.js:387 | "- x" becomes `<li>x</li>` |
| ClientFormat.DigitsThenMark | script-prompts.js:388 | digits followed by ". " make a numbered line that is not a bullet line |
| ClientFormat.NumberedLineListed | script-prompts.js:388 | "12. x" becomes `<li>12. x</li>` |
| ClientFormat.BoldBeforeItalic | script-prompts.js:384-385 | `**x**` becomes `<strong>x</strong>`, not nested emphasis |
| ClientFormat.BreakJoin | script-prompts.js:386 | the newline between two plain lines becomes `<br>` and nothing else changes |
| ClientFormat.NumberedAfterNewlineKept | script-prompts.js:386-388 | an "N. " item after a newline is not listed either: the newline is already `<br>` when the numbered rule runs |
| ClientFormat.BulletAfterNewlineKept | script-prompts.js:386-387 | a "- " item after a newline is not listed: the newline is already `<br>` when the list rule runs |
| ClientChat.FirstTopic | script-prompts.js:342-355 | the topic chosen is mentioned and no earlier topic is, or no topic is mentioned |
| ClientChat.LocalResponse | script-prompts.js:325-356 | the text of the reply LocalReply chooses, so its behaviour is LocalReply's contract. It depends only on the lowered message (LocalResponseIgnoresCase) |
| ClientChat.LocalReply | script-prompts.js:326-355 | the reply is always one of the five topic answers or one of the ten general replies. The first topic the lowered message mentions wins, in the order cashback, points, partners, promotions, help. With no topic mentioned, the general reply at the random index is used |
| ClientChat.LocalResponseIgnoresCase | script-prompts.js:340 | the local reply depends only on the lowered message |
| ClientChat.CashbackAnswered | script-prompts.js:342-343 | a message containing "cashback" anywhere gets the cashback answer, whatever other topics it mentions |
| ClientChat.Step | script-prompts.js:215-277 | the counter invariant holds. A blank send, or any send at the limit, does nothing. An accepted send is shown and counted, and sets the limit flag exactly at 50. Only an accepted send posts the user's message. A request (message, current count) is sent exactly when the typing timer fires. A reply is shown exactly when an outstanding request settles: the backend's reply when it is non-empty, otherwise the local one. The timer moves a waiting message to in flight, a settle returns the page to idle, and any other timer or settle event changes nothing |
| ClientChat.SessionBounds | script-prompts.js:215-247 | over any session the count equals the accepted sends and never passes 50, and every request carries a non-blank message and a count in 1..50 |
| ClientChat.RequestsValidate | script-prompts.js:294-300 | each request the page sends passes the server's validation exactly when its message has at most 1000 characters |
| ClientChat.LimitIsFinal | script-prompts.js:218-220 | once the limit is reached, sends change nothing |

## Left out

- The Express plumbing: CORS, body parsing, request logging, the 404 handler, the health and spreadsheet-test endpoints, process signals and start-up.
- The generator's HTTP request, its body and its configuration. The call is an `Outcome` parameter with five cases.
- The Google Sheets client and `getMoscowTime`. The audit row is emitted as an event. Its write is fire-and-forget, and its failures never reach the response.
- `GET /api/prompts` and `GET /api/prompts/stats`. They only read `GetCurrentPrompt`, `GetAvailablePrompts`, `GetPromptHistory` and `GetAllMetrics`, which are modelled.
- prompts/systemPrompts.js is not part of this model. The built-in prompt table is a parameter of `PromptManager.Init`.
- Concurrency between requests. Each handler is modelled as one step on the shared state. In the source, requests do interleave: the chat handler awaits the generator between `setPrompt` and `trackPromptUsage` (backend/server.js:103-176). Modelling each handler as one step stays sound for two reasons. The handler takes `systemPrompt` before the await. The metric updates commute (PromptMonitoring.TrackCommutes, PromptMonitoring.OrderIndependent), so any interleaving of the recordings leaves the same table.
- Clocks and `Math.random`. They are parameters: `now`, `elapsed`, and the `roll` of the local reply.
- Server.Switch: `promptId` is taken to be a string or absent. The source accepts any JSON value as a key, since backend/server.js:215-216 passes `req.body.promptId` straight to `setPrompt` (`null` becomes "null", `["x"]` becomes "x").
- PromptManager.SetPrompt, Server.Switch: keys inherited from Object.prototype are treated as unknown ids. The source's `this.systemPrompts[promptId]` test (utils/promptManager.js:16-17) is truthy for "constructor", "toString" and the like. A switch to "constructor", through the body or the X-Prompt-ID header (backend/server.js:20-21), succeeds there and makes the current prompt the `Object` function. The model answers 400 or falls back.
- PromptManager.GetAvailablePrompts: the listing follows insertion order. `Object.values` puts integer-like keys such as "7" first, in numeric order. A custom prompt registered under such an id is listed first by the source and last by the model. The same holds for `CreateCustomPrompt` and the `availablePrompts` of Server.Handle's unknown-prompt response.
- Server.CreateCustom: the id, name and description of a custom prompt are taken to be strings. The source stores any JSON value.
- Server.ResolveId: a header present but empty is treated as absent. A header sent as an array is not modelled.
- Server.Handle: the development-mode error message of the global handler is not modelled. Only the production text is.
- The X-Prompt-ID header that script-prompts.js adds to its requests. The page model carries the body only.
- `NaN` and `Infinity` counters. JSON has no literal for either, but an over-range number such as `1e400` parses to ±Infinity. `Number.isInteger` is false for it, so the source answers 400 with the not-an-integer error (backend/server.js:193-194). `JsValue` holds a real number and cannot represent ±Infinity, so that input is not modelled.
- Floating point in the statistics. Averages and rates are exact rationals here, while the source computes them with IEEE doubles (utils/promptMonitoring.js:35-38), so they may differ in the last bits.
- Text.Lower: only ASCII capitals and Cyrillic U+0400-U+042F are folded. Latin-1 capitals, other scripts and Unicode special cases are left as they are. For example, `toLowerCase` maps U+212A KELVIN SIGN to 'k', but the model does not.
- ClientChat.LocalReply: the topic lookup uses Text.Lower. A message that reaches a keyword only through a special case, such as "cashbac" followed by U+212A, gets the cashback answer on the page but a general reply in the model.
- String lengths count characters, not UTF-16 code units. For characters outside the Basic Multilingual Plane the 50/10000/1000 bounds would differ.
- The DOM: typing indicator, scrolling, textarea sizing, the welcome message, analytics events, the connection-status banner and the prompt selector component.
- The page's request timeout (abort after 30 s). It is one of the ways a request can fail, which the `Settle(None, …)` event covers.

## Findings

| source | as written | input that shows it | evidently intended | confidence | as-written member | corrected member |
|---|---|---|---|---|---|---|
| backend/server.js:171 | `startTime` is declared with `const` inside the `try` block (line 103), so the `catch` block's read of it throws a ReferenceError before `trackPromptUsage(..., false)` runs; a failed generation records no metric and the failure count never moves | any valid chat request whose generator call times out | every generator call records one use, with `success = false` on failure | not executed | Server.TimeoutAsWritten | Server.TimeoutIntended |

=== FILE: base.dfy ===
/** Shared value types: an optional value, and the shapes a parsed JSON
    request field can take in the Node.js server. */
module Base {

  datatype Option<+T> = None | Some(value: T)

  /** A field read from a parsed request body. `Undefined` is an absent field;
      numbers are exact rationals (the model does not follow IEEE rounding). */
  datatype JsValue =
    | Undefined
    | Null
    | Bool(b: bool)
    | Num(n: real)
    | Str(s: string)
    | Obj   // any object or array: always truthy, never a string or number

  /** JavaScript truthiness of a request field. */
  predicate Truthy(v: JsValue)
  {
    match v
    case Undefined => false
    case Null => false
    case Bool(b) => b
    case Num(n) => n != 0.0
    case Str(s) => s != ""
    case Obj => true
  }

  /** `Number.isInteger` on a finite number. */
  predicate IsInteger(n: real)
  {
    n == n.Floor as real
  }

  /** No element occurs twice. */
  predicate Distinct<T(==)>(s: seq<T>)
  {
    forall i, j :: 0 <= i < j < |s| ==> s[i] != s[j]
  }

  function Elems<T(==)>(s: seq<T>): set<T>
  {
    set x | x in s
  }

  /** A sequence without repetitions has as many distinct elements as entries. */
  lemma {:induction false} DistinctCard<T>(s: seq<T>)
    requires Distinct(s)
    ensures |Elems(s)| == |s|
  {
    if s != [] {
      var t := s[1..];
      DistinctCard(t);
      assert s[0] !in Elems(t) by {
        forall k | 0 <= k < |t| ensures t[k] != s[0] {
          assert t[k] == s[k + 1];
        }
      }
      assert Elems(s) == Elems(t) + {s[0]} by {
        assert s == [s[0]] + t;
      }
    }
  }
}

=== FILE: client_chat.dfy ===
/** The chat page's client logic (identical in script-prompts.js and
    script-backend.js): the offline keyword reply `generateLocalResponse`,
    and the message counter and limit guard of `sendMessage`,
    `getAIResponse` and `showLimitPage` as a state machine over user and
    timer events. */
module ClientChat {
  import opened Base
  import opened Text
  import Server

  /** `CONFIG.MAX_MESSAGES`. */
  const MaxMessages: nat := 50

  /** How many general replies `responses` holds. */
  const GeneralCount: nat := 10

  /** The general replies, one picked by `Math.random` when no topic
      matches. */
  function GeneralReply(i: nat): string
    requires i < GeneralCount
  {
    if i == 0 then "Спасибо за ваш вопрос! Я помогу вам с информацией о системе лояльности Альфа-Банка."
    else if i == 1 then "Для получения кэшбэка убедитесь, что ваша карта участвует в программе лояльности."
    else if i == 2 then "Баллы начисляются автоматически при совершении покупок у партнеров банка."
    else if i == 3 then "Вы можете проверить баланс баллов в мобильном приложении или интернет-банке."
    else if i == 4 then "Партнерские предложения обновляются ежемесячно. Рекомендую следить за актуальной информацией."
    else if i == 5 then "Для активации специальных предложений может потребоваться регистрация в программе лояльности."
    else if i == 6 then "Кэшбэк начисляется в течение 3-5 рабочих дней после совершения покупки."
    else if i == 7 then "Баллы можно потратить на покупки у партнеров или обменять на мили."
    else if i == 8 then "Если у вас есть вопросы по конкретному предложению, обратитесь в службу поддержки."
    else "Рекомендую подписаться на уведомления о новых акциях и предложениях."
  }

  /** The topic replies, in the order the keyword tests run. */
  function TopicReply(i: nat): string
    requires i < |Keywords|
  {
    if i == 0 then "Кэшбэк начисляется автоматически при покупках у партнеров. Размер кэшбэка зависит от категории покупки и может составлять от 1% до 10% от суммы покупки."
    else if i == 1 then "Баллы начисляются за каждую покупку у партнеров банка. 1 балл = 1 рубль. Баллы можно тратить на покупки или обменивать на мили."
    else if i == 2 then "У нас более 1000 партнеров в различных категориях: рестораны, магазины, заправки, аптеки и многие другие. Полный список доступен в приложении."
    else if i == 3 then "Специальные предложения и акции обновляются регулярно. Рекомендую проверять актуальную информацию в мобильном приложении или на сайте банка."
    else "Для получения персональной помощи обратитесь в службу поддержки по телефону 8 800 200-00-00 или через чат в мобильном приложении."
  }

  /** The two keywords of each topic (cashback, points, partners,
      promotions, help), looked up with `includes` on the lowered message. */
  const Keywords: seq<(string, string)> := [
    ("кэшбэк", "cashback"),
    ("балл", "очк"),
    ("партнер", "магазин"),
    ("акци", "предложен"),
    ("помощь", "поддержк")
  ]

  /** The lowered message contains one of topic `i`'s keywords. */
  predicate Mentions(lowered: string, i: nat)
    requires i < |Keywords|
  {
    Occurs(Keywords[i].0, lowered) || Occurs(Keywords[i].1, lowered)
  }

  /** The keyword tests of `generateLocalResponse`, run in order on the
      lowered message: the first topic mentioned, or `|Keywords|` when the
      message mentions none. */
  function FirstTopic(lowered: string): (k: nat)
    ensures k <= |Keywords|
    ensures k < |Keywords| ==> Mentions(lowered, k)
    ensures forall j :: 0 <= j < k ==> !Mentions(lowered, j)
  {
    if Mentions(lowered, 0) then 0
    else if Mentions(lowered, 1) then 1
    else if Mentions(lowered, 2) then 2
    else if Mentions(lowered, 3) then 3
    else if Mentions(lowered, 4) then 4
    else 5
  }

  /** Which listed text a local reply is: a topic answer, or the general
      reply at an index. */
  datatype Reply = Topic(topic: nat) | General(index: nat)

  /** The reply names one of the listed texts. */
  predicate Listed(r: Reply)
  {
    match r
    case Topic(i) => i < |Keywords|
    case General(j) => j < GeneralCount
  }

  /** The text of a listed reply. */
  function ReplyText(r: Reply): string
    requires Listed(r)
  {
    match r
    case Topic(i) => TopicReply(i)
    case General(j) => GeneralReply(j)
  }

  /** The choice `generateLocalResponse` makes: the answer of the first
      topic the lowered message mentions, in the order cashback, points,
      partners, promotions, help; with no topic mentioned, the general
      reply at `roll`. */
  function LocalReply(userMessage: string, roll: nat): (r: Reply)
    requires roll < GeneralCount
    ensures Listed(r)
    ensures var m := Lower(userMessage);
      forall i :: 0 <= i < |Keywords| && Mentions(m, i) && (forall j :: 0 <= j < i ==> !Mentions(m, j))
                  ==> r == Topic(i)
    ensures (forall i :: 0 <= i < |Keywords| ==> !Mentions(Lower(userMessage), i)) ==> r == General(roll)
  {
    var k := FirstTopic(Lower(userMessage));
    if k < |Keywords| then Topic(k) else General(roll)
  }

  /** `generateLocalResponse(userMessage)`, with `roll` the index that
      `Math.floor(Math.random() * 10)` picks. */
  function LocalResponse(userMessage: string, roll: nat): string
    requires roll < GeneralCount
  {
    ReplyText(LocalReply(userMessage, roll))
  }

  /** The keyword tests see only the lowered text, so the letter case of
      the message never changes the reply. */
  lemma LocalResponseIgnoresCase(userMessage: string, roll: nat)
    requires roll < GeneralCount
    ensures LocalReply(Lower(userMessage), roll) == LocalReply(userMessage, roll)
    ensures LocalResponse(Lower(userMessage), roll) == LocalResponse(userMessage, roll)
  {
    LowerIdempotent(userMessage);
  }

  /** A word already in lower case is found in the lowered text of any
      message that contains it. */
  lemma LoweredWordOccurs(pre: string, w: string, post: string)
    requires Lower(w) == w
    ensures Occurs(w, Lower(pre + w + post))
  {
    LowerConcat(pre + w, post);
    LowerConcat(pre, w);
    var m := Lower(pre) + w + Lower(post);
    assert m[|Lower(pre)|..][..|w|] == w;
  }

  /** A message naming "cashback" anywhere, whatever surrounds it, is
      answered on the cashback topic, the first one checked. */
  lemma CashbackAnswered(pre: string, post: string, roll: nat)
    requires roll < GeneralCount
    ensures LocalReply(pre + Keywords[0].1 + post, roll) == Topic(0)
  {
    LowerFixes(Keywords[0].1);
    LoweredWordOccurs(pre, Keywords[0].1, post);
  }

  // ---------------------------------------------------------------------
  // The send counter

  /** `isTyping` with the step it is in: a reply timer is pending
      (`Waiting`) or the backend request is outstanding (`InFlight`). */
  datatype Phase = Idle | Waiting(message: string) | InFlight(message: string)

  /** The page's counters: `messageCount`, `isLimitReached`, `isTyping`. */
  datatype Client = Client(messageCount: nat, isLimitReached: bool, phase: Phase)

  const Start: Client := Client(0, false, Idle)

  /** What the page reacts to: the user sending the input box's text, the
      typing timer firing, and the backend request settling. `reply` is the
      `reply` field of a successful response, `None` for a failed request;
      `roll` is the random index of the local fallback. */
  datatype Event =
    | Send(input: string)
    | TimerFires
    | Settle(reply: Option<string>, roll: nat)

  predicate WellFormed(e: Event)
  {
    e.Settle? ==> e.roll < GeneralCount
  }

  /** The body of the `/api/chat` request the page sends. */
  datatype Request = Request(message: string, promptcount: nat)

  /** What one event shows or sends: the user's message added to the chat,
      a backend request, the AI message added to the chat. */
  datatype Effects = Effects(posted: Option<string>, request: Option<Request>, shown: Option<string>)

  const Nothing: Effects := Effects(None, None, None)

  /** The counter invariant: the count never passes the limit, the limit
      flag is set exactly at the limit, and a pending reply was preceded by
      a counted send. */
  predicate Inv(c: Client)
  {
    && c.messageCount <= MaxMessages
    && (c.isLimitReached <==> c.messageCount == MaxMessages)
    && (!c.phase.Idle? ==> c.messageCount >= 1 && c.phase.message != "")
  }

  /** A send that `sendMessage` accepts: non-blank text before the limit. */
  predicate Accepts(c: Client, e: Event)
  {
    e.Send? && Trim(e.input) != "" && !c.isLimitReached
  }

  /** One event. A blank send, or any send after the limit, does nothing.
      An accepted send is shown and counted; the send that reaches the
      limit sets the flag and asks nothing of the backend; a send while a
      reply is pending is counted but gets no reply of its own. The typing
      timer sends the pending message with the counter as it is then. A
      settled request shows the backend's reply, or a local one when the
      request failed or the reply was empty. */
  function Step(c: Client, e: Event): (res: (Client, Effects))
    requires WellFormed(e)
    ensures var (c', fx) := res;
      && (Inv(c) ==> Inv(c'))
      && (e.Send? && !Accepts(c, e) ==> c' == c && fx == Nothing)
      && (Accepts(c, e) ==> && c'.messageCount == c.messageCount + 1
                            && fx == Effects(Some(Trim(e.input)), None, None)
                            && (c'.isLimitReached <==> c'.messageCount >= MaxMessages)
                            && (c.phase.Idle? && c'.messageCount < MaxMessages ==> c'.phase == Waiting(Trim(e.input)))
                            && (!c.phase.Idle? || c'.messageCount >= MaxMessages ==> c'.phase == c.phase))
      && (!e.Send? ==> c'.messageCount == c.messageCount && c'.isLimitReached == c.isLimitReached)
      && (fx.request.Some? <==> e.TimerFires? && c.phase.Waiting?)
      && (fx.request.Some? ==> fx.request.value == Request(c.phase.message, c.messageCount))
      && (fx.shown.Some? <==> e.Settle? && c.phase.InFlight?)
      && (fx.shown.Some? && (e.reply.None? || e.reply == Some("")) ==>
            fx.shown.value == LocalResponse(c.phase.message, e.roll))
      && (e.Settle? && c.phase.InFlight? && e.reply.Some? && e.reply.value != "" ==>
            fx.shown == Some(e.reply.value))
      && (e.TimerFires? && c.phase.Waiting? ==> c'.phase == InFlight(c.phase.message))
      && (e.Settle? && c.phase.InFlight? ==> c'.phase == Idle)
      && (e.TimerFires? && !c.phase.Waiting? ==> c' == c)
      && (e.Settle? && !c.phase.InFlight? ==> c' == c)
      && (!e.Send? ==> fx.posted.None?)
  {
    match e
    case Send(input) =>
      var text := Trim(input);
      if text == "" || c.isLimitReached then (c, Nothing)
      else
        var count := c.messageCount + 1;
        var posted := Effects(Some(text), None, None);
        if count >= MaxMessages then (Client(count, true, c.phase), posted)
        else if !c.phase.Idle? then (Client(count, false, c.phase), posted)
        else (Client(count, false, Waiting(text)), posted)
    case TimerFires =>
      if c.phase.Waiting? then
        (c.(phase := InFlight(c.phase.message)), Effects(None, Some(Request(c.phase.message, c.messageCount)), None))
      else (c, Nothing)
    case Settle(reply, roll) =>
      if c.phase.InFlight? then
        var text := if reply.Some? && reply.value != "" then reply.value else LocalResponse(c.phase.message, roll);
        (c.(phase := Idle), Effects(None, None, Some(text)))
      else (c, Nothing)
  }

  /** A session: the final page state and the requests sent, in order. */
  function Run(c: Client, es: seq<Event>): (Client, seq<Request>)
    requires forall i :: 0 <= i < |es| ==> WellFormed(es[i])
    decreases |es|
  {
    if es == [] then (c, [])
    else
      var (c1, fx) := Step(c, es[0]);
      var (c2, rs) := Run(c1, es[1..]);
      (c2, (if fx.request.Some? then [fx.request.value] else []) + rs)
  }

  /** How many sends of a session the page accepts. */
  function AcceptedSends(c: Client, es: seq<Event>): nat
    requires forall i :: 0 <= i < |es| ==> WellFormed(es[i])
    decreases |es|
  {
    if es == [] then 0
    else (if Accepts(c, es[0]) then 1 else 0) + AcceptedSends(Step(c, es[0]).0, es[1..])
  }

  /** Over any session from a fresh page: the counter equals the number of
      accepted sends and stays within the limit, the limit flag is set
      exactly at 50, and every request carries a non-blank message and a
      counter between 1 and 50. */
  lemma {:induction false} SessionBounds(c: Client, es: seq<Event>)
    requires forall i :: 0 <= i < |es| ==> WellFormed(es[i])
    requires Inv(c)
    ensures var (c', rs) := Run(c, es);
      && Inv(c')
      && c'.messageCount == c.messageCount + AcceptedSends(c, es)
      && forall i :: 0 <= i < |rs| ==> 1 <= rs[i].promptcount <= MaxMessages && rs[i].message != ""
    decreases |es|
  {
    if es != [] {
      var (c1, fx) := Step(c, es[0]);
      SessionBounds(c1, es[1..]);
    }
  }

  /** Every request the page sends passes the server's validation whenever
      the message fits the server's 1000-character bound. */
  lemma RequestsValidate(es: seq<Event>)
    requires forall i :: 0 <= i < |es| ==> WellFormed(es[i])
    ensures var rs := Run(Start, es).1;
      forall i :: 0 <= i < |rs| ==>
        (Server.ValidateRequest(Server.ChatBody(Str(rs[i].message), Num(rs[i].promptcount as real))) == []
         <==> |rs[i].message| <= Server.MaxMessageLength)
  {
    SessionBounds(Start, es);
  }

  /** Once the limit is reached, no send is counted and no new reply is
      scheduled. */
  lemma LimitIsFinal(c: Client, input: string)
    requires Inv(c) && c.isLimitReached
    ensures Step(c, Send(input)) == (c, Nothing)
  {
  }
}

=== FILE: client_format.dfy ===
/** `formatMessage` of the chat page (identical in script-prompts.js and
    script-backend.js): five regular-expression rewrites applied in turn —
    bold pairs, italic pairs, newlines, bullet lines, numbered lines. */
module ClientFormat {
  import opened Base
  import opened Text

  const BoldMark: string := "**"
  const ItalicMark: string := "*"
  const BulletMark: string := "- "
  const NumberMark: string := ". "
  const StrongOpen: string := "<strong>"
  const StrongClose: string := "</strong>"
  const EmOpen: string := "<em>"
  const EmClose: string := "</em>"
  const Break: string := "<br>"
  const ItemOpen: string := "<li>"
  const ItemClose: string := "</li>"

  predicate NoTerminator(s: string)
  {
    forall k :: 0 <= k < |s| ==> !IsLineTerminator(s[k])
  }

  /** `c` does not occur in `s`. */
  predicate Lacks(s: string, c: char)
  {
    forall k :: 0 <= k < |s| ==> s[k] != c
  }

  /** Where the lazy `(.*?)` of a delimited pair ends: the offset in `u` of
      the first `d` reached before any line terminator (which `.` cannot
      cross); `FindCloseSpec` states this. */
  function FindClose(u: string, d: string): (r: Option<nat>)
    ensures r.Some? ==> r.value + |d| <= |u|
    decreases |u|
  {
    if StartsWith(u, d) then Some(0)
    else if u == [] || IsLineTerminator(u[0]) then None
    else match FindClose(u[1..], d)
      case None => None
      case Some(j) => Some(j + 1)
  }

  /** The closing delimiter found is the earliest one, it is reached without
      crossing a line break, and when none is found every later delimiter
      lies beyond a line break. */
  lemma {:induction false} FindCloseSpec(u: string, d: string)
    ensures var r := FindClose(u, d);
      && (r.Some? ==> && StartsWith(u[r.value..], d)
                      && NoTerminator(u[..r.value])
                      && forall k :: 0 <= k < r.value ==> !StartsWith(u[k..], d))
      && (r.None? ==> forall j :: 0 <= j <= |u| && StartsWith(u[j..], d) ==> !NoTerminator(u[..j]))
    decreases |u|
  {
    if StartsWith(u, d) {
    } else if u == [] {
    } else if IsLineTerminator(u[0]) {
      forall j | 0 <= j <= |u| && StartsWith(u[j..], d) ensures !NoTerminator(u[..j]) {
        if j > 0 { assert u[..j][0] == u[0]; }
      }
    } else {
      var v := u[1..];
      FindCloseSpec(v, d);
      match FindClose(v, d)
      case None =>
        forall j | 0 <= j <= |u| && StartsWith(u[j..], d) ensures !NoTerminator(u[..j]) {
          if j > 0 {
            assert u[j..] == v[j - 1..];
            var k :| 0 <= k < j - 1 && IsLineTerminator(v[..j - 1][k]);
            assert u[..j][k + 1] == v[..j - 1][k];
          }
        }
      case Some(i) =>
        assert u[i + 1..] == v[i..];
        forall k | 0 <= k < i + 1 ensures !IsLineTerminator(u[k]) {
          if k > 0 { assert u[k] == v[..i][k - 1]; }
        }
        forall k | 0 <= k < i + 1 ensures !StartsWith(u[k..], d) {
          if k > 0 { assert u[k..] == v[k - 1..]; }
        }
    }
  }

  /** `text.replace(/D(.*?)D/g, open + '$1' + close)` for a delimiter `D`:
      scanning left to right, each opening delimiter that has a closing one
      on the same line is replaced together with it. */
  function ReplacePairs(t: string, d: string, open: string, close: string): string
    requires |d| > 0
    decreases |t|
  {
    if t == [] then []
    else if StartsWith(t, d) && FindClose(t[|d|..], d).Some? then
      var u := t[|d|..];
      var j := FindClose(u, d).value;
      open + u[..j] + close + ReplacePairs(u[j + |d|..], d, open, close)
    else
      [t[0]] + ReplacePairs(t[1..], d, open, close)
  }

  /** `.replace(/\n/g, '<br>')`. */
  function Breaks(s: string): (r: string)
    ensures Lacks(r, '\n')
    decreases |s|
  {
    if s == [] then []
    else (if s[0] == '\n' then Break else [s[0]]) + Breaks(s[1..])
  }

  datatype LineRule = Bullet | Numbered

  /** Number of leading ASCII digits. */
  function DigitRun(s: string): (n: nat)
    ensures n <= |s|
    ensures forall k :: 0 <= k < n ==> IsDigit(s[k])
    ensures n < |s| ==> !IsDigit(s[n])
    decreases |s|
  {
    if s != [] && IsDigit(s[0]) then 1 + DigitRun(s[1..]) else 0
  }

  /** A line `/^(\d+)\. (.*$)/` accepts: some digits, then ". ". */
  predicate IsNumberedLine(line: string)
  {
    var n := DigitRun(line);
    n >= 1 && StartsWith(line[n..], NumberMark)
  }

  /** One line under the `m`-flagged rule: `^\- (.*$)` becomes
      `<li>$1</li>`; `^(\d+)\. (.*$)` becomes `<li>$1. $2</li>`, which is
      the whole line wrapped. */
  function RewriteLine(line: string, rule: LineRule): string
  {
    match rule
    case Bullet => if StartsWith(line, BulletMark) then ItemOpen + line[2..] + ItemClose else line
    case Numbered => if IsNumberedLine(line) then ItemOpen + line + ItemClose else line
  }

  /** Index of the first line terminator, or the length. */
  function LineEnd(s: string): (k: nat)
    ensures k <= |s| && NoTerminator(s[..k])
    ensures k < |s| ==> IsLineTerminator(s[k])
    decreases |s|
  {
    if s == [] || IsLineTerminator(s[0]) then 0 else 1 + LineEnd(s[1..])
  }

  /** A global, multi-line rule applied to every line; the terminators
      between lines are kept. */
  function RewriteLines(s: string, rule: LineRule): string
    decreases |s|
  {
    var k := LineEnd(s);
    if k == |s| then RewriteLine(s, rule)
    else RewriteLine(s[..k], rule) + [s[k]] + RewriteLines(s[k + 1..], rule)
  }

  /** `formatMessage`: every newline has become `<br>` before the line
      rules run, and they add none back. */
  function FormatMessage(text: string): (r: string)
    ensures Lacks(r, '\n')
  {
    var lines := Inline(text);
    RewriteLinesNoNewline(lines, Bullet);
    RewriteLinesNoNewline(RewriteLines(lines, Bullet), Numbered);
    RewriteLines(RewriteLines(lines, Bullet), Numbered)
  }

  /** The first three stages: bold, italic, line breaks. */
  function Inline(text: string): string
  {
    Breaks(ReplacePairs(ReplacePairs(text, BoldMark, StrongOpen, StrongClose), ItalicMark, EmOpen, EmClose))
  }

  // ---------------------------------------------------------------------
  // Properties

  /** The leading digit run ends at the first non-digit. */
  lemma {:induction false} DigitRunExact(s: string, n: nat)
    requires n <= |s| && (forall k :: 0 <= k < n ==> IsDigit(s[k]))
    requires n < |s| ==> !IsDigit(s[n])
    ensures DigitRun(s) == n
    decreases n
  {
    if n > 0 {
      DigitRunExact(s[1..], n - 1);
    }
  }

  /** A line that names a number is exactly digits followed by ". ", however
      the digits are split: the regex's backtracking finds no other match. */
  lemma NumberedLineSpec(line: string)
    ensures IsNumberedLine(line) <==>
      exists n :: 1 <= n <= |line| && (forall k :: 0 <= k < n ==> IsDigit(line[k])) && StartsWith(line[n..], NumberMark)
  {
    if exists n :: 1 <= n <= |line| && (forall k :: 0 <= k < n ==> IsDigit(line[k])) && StartsWith(line[n..], NumberMark) {
      var n :| 1 <= n <= |line| && (forall k :: 0 <= k < n ==> IsDigit(line[k])) && StartsWith(line[n..], NumberMark);
      assert line[n..][0] == line[n];
      DigitRunExact(line, n);
    }
  }

  /** Text without the delimiter's first character has no pair to rewrite. */
  lemma {:induction false} NoDelimiterUnchanged(t: string, d: string, open: string, close: string)
    requires |d| > 0 && Lacks(t, d[0])
    ensures ReplacePairs(t, d, open, close) == t
    decreases |t|
  {
    if t != [] {
      if |d| <= |t| {
        assert t[..|d|][0] == t[0];
      }
      NoDelimiterUnchanged(t[1..], d, open, close);
    }
  }

  /** In a line free of the delimiter's first character, the pair opened
      before it closes right after it. */
  lemma {:induction false} CloseAfter(x: string, d: string)
    requires |d| > 0 && Lacks(x, d[0]) && NoTerminator(x)
    ensures FindClose(x + d, d) == Some(|x|)
    decreases |x|
  {
    if x == [] {
      assert x + d == d;
    } else {
      assert (x + d)[..|d|][0] == x[0];
      assert (x + d)[1..] == x[1..] + d;
      CloseAfter(x[1..], d);
    }
  }

  /** A delimited pair at the start of the text, closed at the end. */
  lemma WholePair(x: string, d: string, open: string, close: string)
    requires |d| > 0 && Lacks(x, d[0]) && NoTerminator(x)
    ensures ReplacePairs(d + x + d, d, open, close) == open + x + close
  {
    var t := d + x + d;
    var u := t[|d|..];
    assert u == x + d;
    CloseAfter(x, d);
    assert u[..|x|] == x;
    assert u[|x| + |d|..] == [];
    assert t[..|d|] == d;
  }

  /** A pair opens at `i`: the delimiter starts there and the lazy group
      finds its close on the same line. */
  predicate PairAt(r: string, d: string, i: int)
    requires 0 <= i <= |r|
  {
    StartsWith(r[i..], d) && FindClose(r[i + |d|..], d).Some?
  }

  /** No pair is left for the rule to rewrite. */
  predicate NoPair(r: string, d: string)
  {
    forall i :: 0 <= i <= |r| ==> !PairAt(r, d, i)
  }

  /** A delimiter made of one repeated character that is not a line
      terminator, like `**` and `*`. */
  predicate Uniform(d: string)
  {
    |d| > 0 && !IsLineTerminator(d[0]) && forall k :: 0 <= k < |d| ==> d[k] == d[0]
  }

  /** Where no pair opens, `ReplacePairs` copies the text. */
  lemma {:induction false} KeepPrefix(t: string, d: string, open: string, close: string, m: nat)
    requires |d| > 0 && m <= |t|
    requires forall p :: 0 <= p < m ==> !PairAt(t, d, p)
    ensures ReplacePairs(t, d, open, close) == t[..m] + ReplacePairs(t[m..], d, open, close)
    decreases m
  {
    if m > 0 {
      assert !PairAt(t, d, 0);
      assert t[0..] == t;
      var v := t[1..];
      forall p | 0 <= p < m - 1 ensures !PairAt(v, d, p) {
        assert !PairAt(t, d, p + 1);
        assert v[p..] == t[p + 1..];
        if |d| <= |v| - p {
          assert v[p + |d|..] == t[p + 1 + |d|..];
        }
      }
      KeepPrefix(v, d, open, close, m - 1);
      assert v[m - 1..] == t[m..];
      assert [t[0]] + v[..m - 1] == t[..m];
    }
  }

  /** A leading run of delimiter characters in the output was copied from
      the input: a rewritten pair would begin with `open` instead. */
  lemma {:induction false} LeadingRun(s: string, d: string, open: string, close: string, n: nat)
    requires |d| > 0 && |open| > 0 && Lacks(open, d[0])
    requires var r := ReplacePairs(s, d, open, close); n <= |r| && forall k :: 0 <= k < n ==> r[k] == d[0]
    ensures n <= |s| && ReplacePairs(s, d, open, close)[..n] == s[..n]
    decreases n
  {
    if n > 0 {
      var r := ReplacePairs(s, d, open, close);
      assert s != [];
      ReplacePairsHead(s, d, open, close);
      assert s[0..] == s;
      if !PairAt(s, d, 0) {
        var v := s[1..];
        var rv := ReplacePairs(v, d, open, close);
        assert r == [s[0]] + rv;
        forall k | 0 <= k < n - 1 ensures rv[k] == d[0] { assert rv[k] == r[k + 1]; }
        LeadingRun(v, d, open, close, n - 1);
        assert r[..n] == [s[0]] + rv[..n - 1];
      }
    }
  }

  /** A pair that opens before the end of a delimiter's line closes on that
      line, so the delimiter itself would have found that close. */
  lemma InnerPair(t: string, d: string, p: nat)
    requires Uniform(d) && |d| <= |t|
    requires p < |d| + LineEnd(t[|d|..]) && p <= |t| && PairAt(t, d, p)
    ensures FindClose(t[|d|..], d).Some?
  {
    var w := t[|d|..];
    var n := LineEnd(w);
    var x := t[p + |d|..];
    FindCloseSpec(x, d);
    var j := FindClose(x, d).value;
    var v := w[..p + j];
    forall k | 0 <= k < |v| ensures !IsLineTerminator(v[k]) {
      if k + |d| < p {
        assert v[k] == w[..n][k];
      } else if k < p {
        assert v[k] == t[p..][..|d|][k + |d| - p];
      } else {
        assert v[k] == x[..j][k - p];
      }
    }
    assert w[p + j..] == x[j..];
    FindCloseSpec(w, d);
  }

  /** A delimiter that opens no pair leaves no pair open anywhere on the
      rest of its line. */
  lemma NoPairOnLine(t: string, d: string)
    requires Uniform(d) && StartsWith(t, d) && FindClose(t[|d|..], d).None?
    ensures var e := |d| + LineEnd(t[|d|..]);
      e <= |t| && forall p :: 0 <= p < e ==> !PairAt(t, d, p)
  {
    var e := |d| + LineEnd(t[|d|..]);
    forall p | 0 <= p < e ensures !PairAt(t, d, p) {
      if PairAt(t, d, p) {
        InnerPair(t, d, p);
      }
    }
  }

  /** The first character of the output: `open` where a pair opens, the
      input's own first character otherwise. */
  lemma ReplacePairsHead(s: string, d: string, open: string, close: string)
    requires |d| > 0 && |open| > 0 && s != []
    ensures var r := ReplacePairs(s, d, open, close);
      r != [] && r[0] == if PairAt(s, d, 0) then open[0] else s[0]
  {
    assert s[0..] == s;
  }

  /** No pair opens at a character other than the delimiter's. */
  lemma LacksNoPair(pre: string, rest: string, d: string)
    requires |d| > 0 && Lacks(pre, d[0])
    ensures forall i :: 0 <= i < |pre| ==> !PairAt(pre + rest, d, i)
  {
    var r := pre + rest;
    forall i | 0 <= i < |pre| ensures !StartsWith(r[i..], d) {
      if |d| <= |r| - i {
        assert r[i..][..|d|][0] == r[i] == pre[i];
      }
    }
  }

  /** Pairs in a suffix are pairs of the suffix alone. */
  lemma JoinNoPair(pre: string, rest: string, d: string)
    requires NoPair(rest, d)
    requires forall i :: 0 <= i < |pre| ==> !PairAt(pre + rest, d, i)
    ensures NoPair(pre + rest, d)
  {
    var r := pre + rest;
    forall i | |pre| <= i <= |r| ensures !PairAt(r, d, i) {
      assert r[i..] == rest[i - |pre|..];
      assert !PairAt(rest, d, i - |pre|);
      if |d| <= |r| - i {
        assert r[i + |d|..] == rest[i - |pre| + |d|..];
      }
    }
  }

  /** The content of a rewritten pair holds no delimiter, and the tag after
      it cannot complete one. */
  lemma ContentNoPair(u: string, j: nat, d: string, tail: string)
    requires Uniform(d) && j <= |u| && tail != [] && tail[0] != d[0]
    requires forall k :: 0 <= k < j ==> !StartsWith(u[k..], d)
    ensures forall i :: 0 <= i < j ==> !PairAt(u[..j] + tail, d, i)
  {
    var m := u[..j] + tail;
    forall i | 0 <= i < j && |d| <= |m| - i ensures m[i..][..|d|] != d {
      if i + |d| > j {
        assert m[i..][..|d|][j - i] == m[j] == tail[0];
      } else {
        assert m[i..][..|d|] == u[i..][..|d|];
      }
    }
  }

  /** A rewritten pair followed by text with no pair open leaves no pair
      open: `open`, the content and `close` cannot start one. */
  lemma TaggedNoPair(open: string, u: string, j: nat, close: string, rest: string, d: string)
    requires Uniform(d) && |close| > 0 && Lacks(open, d[0]) && Lacks(close, d[0])
    requires j <= |u| && forall k :: 0 <= k < j ==> !StartsWith(u[k..], d)
    requires NoPair(rest, d)
    ensures NoPair(open + u[..j] + close + rest, d)
  {
    var cr := close + rest;
    LacksNoPair(close, rest, d);
    JoinNoPair(close, rest, d);
    ContentNoPair(u, j, d, cr);
    var m := u[..j] + cr;
    JoinNoPair(u[..j], cr, d);
    LacksNoPair(open, m, d);
    JoinNoPair(open, m, d);
    assert open + u[..j] + close + rest == open + m;
  }

  /** One pair rewritten, and no pair open in the rewritten rest. */
  lemma RewrittenPair(t: string, d: string, open: string, close: string)
    requires Uniform(d) && |close| > 0 && Lacks(open, d[0]) && Lacks(close, d[0])
    requires PairAt(t, d, 0)
    requires NoPair(ReplacePairs(t[|d|..][FindClose(t[|d|..], d).value + |d|..], d, open, close), d)
    ensures NoPair(ReplacePairs(t, d, open, close), d)
  {
    var u := t[|d|..];
    FindCloseSpec(u, d);
    var j := FindClose(u, d).value;
    PairStep(t, d, open, close);
    TaggedNoPair(open, u, j, close, ReplacePairs(u[j + |d|..], d, open, close), d);
  }

  /** How `ReplacePairs` rewrites a pair that opens at the start. */
  lemma PairStep(t: string, d: string, open: string, close: string)
    requires |d| > 0 && PairAt(t, d, 0)
    ensures var u := t[|d|..];
      var j := FindClose(u, d).value;
      ReplacePairs(t, d, open, close) == open + u[..j] + close + ReplacePairs(u[j + |d|..], d, open, close)
  {
    assert t[0..] == t;
  }

  /** An output that starts with the delimiter while the input's first
      character was kept: the input starts with the delimiter too. */
  lemma KeptDelimiter(t: string, d: string, open: string, close: string)
    requires Uniform(d) && |open| > 0 && Lacks(open, d[0])
    requires t != [] && !PairAt(t, d, 0)
    requires StartsWith(ReplacePairs(t, d, open, close), d)
    ensures StartsWith(t, d)
  {
    assert t[0..] == t;
    var r := ReplacePairs(t, d, open, close);
    var rv := ReplacePairs(t[1..], d, open, close);
    assert r == [t[0]] + rv;
    forall k | 0 <= k < |d| - 1 ensures rv[k] == d[0] {
      assert rv[k] == r[..|d|][k + 1];
    }
    LeadingRun(t[1..], d, open, close, |d| - 1);
    assert t[..|d|] == [t[0]] + t[1..][..|d| - 1];
    assert r[..|d|] == [r[0]] + rv[..|d| - 1];
  }

  /** The lazy group looks no further than the line: two texts that agree
      up to the same line end find the same close. */
  lemma {:induction false} FindCloseSameLine(w: string, x: string, d: string, n: nat)
    requires Uniform(d) && n <= |w| && n <= |x| && w[..n] == x[..n]
    requires (n == |w| && n == |x|) || (n < |w| && n < |x| && w[n] == x[n] && IsLineTerminator(w[n]))
    ensures FindClose(w, d) == FindClose(x, d)
    decreases n
  {
    assert StartsWith(w, d) <==> StartsWith(x, d) by {
      if |d| <= n {
        assert w[..|d|] == w[..n][..|d|] == x[..n][..|d|] == x[..|d|];
      } else if n < |w| && |d| <= |w| && |d| <= |x| {
        assert w[..|d|][n] == w[n] == x[..|d|][n];
      }
    }
    if n > 0 {
      assert w[0] == w[..n][0] == x[0];
      assert w[1..][..n - 1] == x[1..][..n - 1];
      FindCloseSameLine(w[1..], x[1..], d, n - 1);
    }
  }

  /** A first character kept as it is opens no pair in the output either:
      the rest of its line is copied, and it held no close. */
  lemma KeptFirst(t: string, d: string, open: string, close: string)
    requires Uniform(d) && |open| > 0 && Lacks(open, d[0])
    requires t != [] && !PairAt(t, d, 0)
    ensures !PairAt(ReplacePairs(t, d, open, close), d, 0)
  {
    var r := ReplacePairs(t, d, open, close);
    assert r[0..] == r;
    assert t[0..] == t;
    if StartsWith(r, d) {
      KeptDelimiter(t, d, open, close);
      var w := t[|d|..];
      var n := LineEnd(w);
      var e := |d| + n;
      NoPairOnLine(t, d);
      KeepPrefix(t, d, open, close, e);
      var rr := ReplacePairs(t[e..], d, open, close);
      assert r == t[..e] + rr;
      if e < |t| {
        assert t[e..][0] == t[e] == w[n];
        ReplacePairsHead(t[e..], d, open, close);
      }
      assert r[|d|..][..n] == w[..n];
      FindCloseSameLine(w, r[|d|..], d, n);
    }
  }

  /** After a pair rule has run, no pair of its delimiter is left: a `**`
      pair is never there for the italic rule to take, since the bold rule
      rewrote every one first. */
  lemma {:induction false} NoPairLeft(t: string, d: string, open: string, close: string)
    requires Uniform(d) && |open| > 0 && |close| > 0 && Lacks(open, d[0]) && Lacks(close, d[0])
    ensures NoPair(ReplacePairs(t, d, open, close), d)
    decreases |t|
  {
    if t != [] {
      assert t[0..] == t;
      if PairAt(t, d, 0) {
        var u := t[|d|..];
        NoPairLeft(u[FindClose(u, d).value + |d|..], d, open, close);
        RewrittenPair(t, d, open, close);
      } else {
        var r := ReplacePairs(t, d, open, close);
        var rv := ReplacePairs(t[1..], d, open, close);
        NoPairLeft(t[1..], d, open, close);
        KeptFirst(t, d, open, close);
        assert r == [t[0]] + rv;
        forall i | 1 <= i <= |r| ensures !PairAt(r, d, i) {
          assert r[i..] == rv[i - 1..];
          assert !PairAt(rv, d, i - 1);
          if |d| <= |r| - i {
            assert r[i + |d|..] == rv[i - 1 + |d|..];
          }
        }
        assert r[0..] == r;
      }
    }
  }

  /** The bold rule leaves no `**` pair. */
  lemma BoldLeavesNoPair(t: string)
    ensures NoPair(ReplacePairs(t, BoldMark, StrongOpen, StrongClose), BoldMark)
  {
    NoPairLeft(t, BoldMark, StrongOpen, StrongClose);
  }

  lemma {:induction false} NoNewlineUnbroken(s: string)
    requires Lacks(s, '\n')
    ensures Breaks(s) == s
    decreases |s|
  {
    if s != [] {
      NoNewlineUnbroken(s[1..]);
    }
  }

  lemma {:induction false} BreaksConcat(s: string, t: string)
    ensures Breaks(s + t) == Breaks(s) + Breaks(t)
    decreases |s|
  {
    if s == [] {
      assert s + t == t;
    } else {
      assert (s + t)[0] == s[0];
      assert (s + t)[1..] == s[1..] + t;
      BreaksConcat(s[1..], t);
    }
  }

  /** A single line is rewritten by the line rule alone. */
  lemma SingleLine(s: string, rule: LineRule)
    requires NoTerminator(s)
    ensures RewriteLines(s, rule) == RewriteLine(s, rule)
  {
  }

  /** A line rule inserts no newline. */
  lemma RewriteLineNoNewline(line: string, rule: LineRule)
    requires Lacks(line, '\n')
    ensures Lacks(RewriteLine(line, rule), '\n')
  {
    if rule.Bullet? && StartsWith(line, BulletMark) {
      var r := ItemOpen + line[2..] + ItemClose;
      forall k | 4 <= k < 4 + |line| - 2 ensures r[k] != '\n' {
        assert r[k] == line[k - 2];
      }
    } else if rule.Numbered? && IsNumberedLine(line) {
      var r := ItemOpen + line + ItemClose;
      forall k | 4 <= k < 4 + |line| ensures r[k] != '\n' {
        assert r[k] == line[k - 4];
      }
    }
  }

  /** Line rules insert no newline. */
  lemma {:induction false} RewriteLinesNoNewline(s: string, rule: LineRule)
    requires Lacks(s, '\n')
    ensures Lacks(RewriteLines(s, rule), '\n')
    decreases |s|
  {
    var k := LineEnd(s);
    if k == |s| {
      RewriteLineNoNewline(s, rule);
    } else {
      RewriteLinesNoNewline(s[k + 1..], rule);
      RewriteLineNoNewline(s[..k], rule);
      var a := RewriteLine(s[..k], rule);
      var b := RewriteLines(s[k + 1..], rule);
      var r := a + [s[k]] + b;
      forall i | 0 <= i < |r| ensures r[i] != '\n' {
        if i < |a| { assert r[i] == a[i]; }
        else if i > |a| { assert r[i] == b[i - |a| - 1]; }
      }
    }
  }

  /** The output never holds a newline: every one became `<br>`. */
  lemma FormatHasNoNewline(text: string)
    ensures '\n' !in FormatMessage(text)
  {
    RewriteLinesNoNewline(Inline(text), Bullet);
    RewriteLinesNoNewline(RewriteLines(Inline(text), Bullet), Numbered);
    var r := FormatMessage(text);
    assert Lacks(r, '\n');
  }

  /** Text with no star and no line break. */
  predicate PlainLine(s: string)
  {
    Lacks(s, '*') && NoTerminator(s)
  }

  lemma PlainConcat(a: string, b: string)
    ensures PlainLine(a + b) <==> PlainLine(a) && PlainLine(b)
  {
    var t := a + b;
    if PlainLine(a) && PlainLine(b) {
      forall k | 0 <= k < |t| ensures t[k] != '*' && !IsLineTerminator(t[k]) {
        if k < |a| { assert t[k] == a[k]; } else { assert t[k] == b[k - |a|]; }
      }
    }
    if PlainLine(t) {
      forall k | 0 <= k < |a| ensures a[k] != '*' && !IsLineTerminator(a[k]) {
        assert t[k] == a[k];
      }
      forall k | 0 <= k < |b| ensures b[k] != '*' && !IsLineTerminator(b[k]) {
        assert t[|a| + k] == b[k];
      }
    }
  }

  /** The inline stages leave plain text alone. */
  lemma InlinePlain(s: string)
    requires PlainLine(s)
    ensures Inline(s) == s
  {
    NoDelimiterUnchanged(s, BoldMark, StrongOpen, StrongClose);
    NoDelimiterUnchanged(s, ItalicMark, EmOpen, EmClose);
    NoNewlineUnbroken(s);
  }

  lemma RewriteLineNoTerminator(line: string, rule: LineRule)
    requires NoTerminator(line)
    ensures NoTerminator(RewriteLine(line, rule))
  {
    if rule.Bullet? && StartsWith(line, BulletMark) {
      var r := ItemOpen + line[2..] + ItemClose;
      forall k | 4 <= k < 4 + |line| - 2 ensures !IsLineTerminator(r[k]) {
        assert r[k] == line[k - 2];
      }
    } else if rule.Numbered? && IsNumberedLine(line) {
      var r := ItemOpen + line + ItemClose;
      forall k | 4 <= k < 4 + |line| ensures !IsLineTerminator(r[k]) {
        assert r[k] == line[k - 4];
      }
    }
  }

  /** When the inline stages leave a single line, the line rules act on it
      once each. */
  lemma FormatOneLine(text: string)
    requires NoTerminator(Inline(text))
    ensures FormatMessage(text) == RewriteLine(RewriteLine(Inline(text), Bullet), Numbered)
  {
    var pre := Inline(text);
    SingleLine(pre, Bullet);
    RewriteLineNoTerminator(pre, Bullet);
    SingleLine(RewriteLine(pre, Bullet), Numbered);
  }

  /** Plain single-line text that is neither a bullet nor a numbered line
      comes back unchanged. */
  lemma PlainTextUnchanged(text: string)
    requires PlainLine(text)
    requires !StartsWith(text, BulletMark) && !IsNumberedLine(text)
    ensures FormatMessage(text) == text
  {
    InlinePlain(text);
    FormatOneLine(text);
  }

  /** A line opening with `<` is left alone by both line rules. */
  lemma TagLineKept(line: string)
    requires line != [] && line[0] == '<'
    ensures RewriteLine(RewriteLine(line, Bullet), Numbered) == line
  {
    assert DigitRun(line) == 0;
  }

  /** A plain line that starts with "- " becomes one list item. */
  lemma BulletLineListed(x: string)
    requires PlainLine(x)
    ensures FormatMessage(BulletMark + x) == ItemOpen + x + ItemClose
  {
    var line := BulletMark + x;
    PlainConcat(BulletMark, x);
    InlinePlain(line);
    FormatOneLine(line);
    assert line[2..] == x;
    var item := ItemOpen + x + ItemClose;
    assert RewriteLine(line, Bullet) == item;
    TagLineKept(item);
  }

  /** The numbered rule matches digits followed by ". ". */
  lemma DigitsThenMark(digits: string, x: string)
    requires digits != [] && forall k :: 0 <= k < |digits| ==> IsDigit(digits[k])
    ensures IsNumberedLine(digits + NumberMark + x)
    ensures !StartsWith(digits + NumberMark + x, BulletMark)
  {
    var line := digits + NumberMark + x;
    assert line[0] == digits[0];
    assert forall k :: 0 <= k < |digits| ==> line[k] == digits[k];
    assert line[|digits|] == '.';
    DigitRunExact(line, |digits|);
    assert line[|digits|..][..2] == NumberMark;
  }

  /** A plain line that starts with digits and ". " becomes one list item
      that keeps its number. */
  lemma NumberedLineListed(digits: string, x: string)
    requires digits != [] && forall k :: 0 <= k < |digits| ==> IsDigit(digits[k])
    requires PlainLine(x)
    ensures FormatMessage(digits + NumberMark + x) == ItemOpen + digits + NumberMark + x + ItemClose
  {
    var line := digits + NumberMark + x;
    assert PlainLine(digits) by {
      forall k | 0 <= k < |digits| ensures digits[k] != '*' && !IsLineTerminator(digits[k]) {
        assert IsDigit(digits[k]);
      }
    }
    PlainConcat(digits, NumberMark);
    PlainConcat(digits + NumberMark, x);
    InlinePlain(line);
    FormatOneLine(line);
    DigitsThenMark(digits, x);
  }

  /** Bold runs first: a `**x**` pair becomes `<strong>x</strong>` and its
      stars are gone before the italic rule could pair them. */
  lemma BoldBeforeItalic(x: string)
    requires PlainLine(x)
    ensures FormatMessage(BoldMark + x + BoldMark) == StrongOpen + x + StrongClose
  {
    var t := BoldMark + x + BoldMark;
    var bold := StrongOpen + x + StrongClose;
    InlineBold(x);
    FormatOneLine(t);
    assert bold[0] == '<';
    TagLineKept(bold);
  }

  lemma InlineBold(x: string)
    requires PlainLine(x)
    ensures Inline(BoldMark + x + BoldMark) == StrongOpen + x + StrongClose
    ensures PlainLine(StrongOpen + x + StrongClose)
  {
    WholePair(x, BoldMark, StrongOpen, StrongClose);
    StrongPlain(x);
    var bold := StrongOpen + x + StrongClose;
    NoDelimiterUnchanged(bold, ItalicMark, EmOpen, EmClose);
    NoNewlineUnbroken(bold);
  }

  lemma StrongPlain(x: string)
    requires PlainLine(x)
    ensures PlainLine(StrongOpen + x + StrongClose)
  {
    assert PlainLine(StrongOpen);
    assert PlainLine(StrongClose);
    PlainConcat(StrongOpen, x);
    PlainConcat(StrongOpen + x, StrongClose);
  }

  /** The newline of `a + "\n" + tail` becomes `<br>` and nothing else
      changes, for plain lines `a` and `tail`. */
  lemma BreakJoin(a: string, tail: string)
    requires PlainLine(a) && PlainLine(tail)
    ensures Inline(a + "\n" + tail) == a + Break + tail
  {
    var t := a + "\n" + tail;
    LacksConcat(a, "\n", '*');
    LacksConcat(a + "\n", tail, '*');
    NoDelimiterUnchanged(t, BoldMark, StrongOpen, StrongClose);
    NoDelimiterUnchanged(t, ItalicMark, EmOpen, EmClose);
    BreakBetween(a, tail);
  }

  /** The newline between two lines without one is the only one replaced. */
  lemma BreakBetween(a: string, tail: string)
    requires NoTerminator(a) && NoTerminator(tail)
    ensures Breaks(a + "\n" + tail) == a + Break + tail
  {
    assert a + "\n" + tail == a + ("\n" + tail);
    BreaksConcat(a, "\n" + tail);
    BreaksConcat("\n", tail);
    NoNewlineUnbroken(a);
    NoNewlineUnbroken(tail);
  }

  /** A character is missing from a concatenation exactly when it is
      missing from both parts. */
  lemma LacksConcat(a: string, b: string, c: char)
    ensures Lacks(a + b, c) <==> Lacks(a, c) && Lacks(b, c)
  {
    var t := a + b;
    if Lacks(a, c) && Lacks(b, c) {
      forall k | 0 <= k < |t| ensures t[k] != c {
        if k < |a| { assert t[k] == a[k]; } else { assert t[k] == b[k - |a|]; }
      }
    }
    if Lacks(t, c) {
      forall k | 0 <= k < |a| ensures a[k] != c { assert t[k] == a[k]; }
      forall k | 0 <= k < |b| ensures b[k] != c { assert t[|a| + k] == b[k]; }
    }
  }

  /** A "- " that follows a newline is not listed: the newline has become
      `<br>` before the bullet rule looks for a line start. */
  lemma BulletAfterNewlineKept(a: string, b: string)
    requires PlainLine(a) && PlainLine(b)
    requires a == [] || (a[0] != '-' && !IsDigit(a[0]))
    ensures FormatMessage(a + "\n" + BulletMark + b) == a + Break + BulletMark + b
  {
    JoinedPlain(a, b);
    SecondLineKept(a, BulletMark + b);
    assert a + "\n" + BulletMark + b == a + "\n" + (BulletMark + b);
    assert a + Break + BulletMark + b == a + Break + (BulletMark + b);
  }

  /** Two lines whose joined inline form is one plain line, the first not
      opening a list item, come out joined by `<br>` and otherwise as
      `Inline` left them. */
  lemma SecondLineKept(a: string, tail: string)
    requires a == [] || (a[0] != '-' && !IsDigit(a[0]))
    requires Inline(a + "\n" + tail) == a + Break + tail
    requires PlainLine(a + Break + tail)
    ensures FormatMessage(a + "\n" + tail) == a + Break + tail
  {
    FormatOneLine(a + "\n" + tail);
    assert a + Break + tail == a + (Break + tail);
    LeadingKept(a, Break + tail);
  }

  /** A numbered line's "N. " that follows a newline is not listed either:
      the numbered rule, too, finds the `<br>` where a line start was. */
  lemma NumberedAfterNewlineKept(a: string, n: string, b: string)
    requires PlainLine(a) && PlainLine(b)
    requires a == [] || (a[0] != '-' && !IsDigit(a[0]))
    requires |n| >= 1 && forall k :: 0 <= k < |n| ==> IsDigit(n[k])
    ensures FormatMessage(a + "\n" + n + NumberMark + b) == a + Break + n + NumberMark + b
  {
    var tail := n + NumberMark + b;
    assert PlainLine(n) && PlainLine(NumberMark) && PlainLine(Break);
    PlainConcat(n, NumberMark);
    PlainConcat(n + NumberMark, b);
    BreakJoin(a, tail);
    PlainConcat(a, Break);
    PlainConcat(a + Break, tail);
    SecondLineKept(a, tail);
    assert a + "\n" + n + NumberMark + b == a + "\n" + tail;
    assert a + Break + n + NumberMark + b == a + Break + tail;
  }

  lemma JoinedPlain(a: string, b: string)
    requires PlainLine(a) && PlainLine(b)
    ensures Inline(a + "\n" + (BulletMark + b)) == a + Break + (BulletMark + b)
    ensures PlainLine(a + Break + (BulletMark + b))
  {
    var tail := BulletMark + b;
    assert PlainLine(BulletMark) && PlainLine(Break);
    PlainConcat(BulletMark, b);
    BreakJoin(a, tail);
    PlainConcat(a, Break);
    PlainConcat(a + Break, tail);
  }

  /** A line that starts neither with '-' nor with a digit is left alone
      by both line rules. */
  lemma LeadingKept(a: string, rest: string)
    requires a == [] || (a[0] != '-' && !IsDigit(a[0]))
    requires rest != [] && rest[0] == '<'
    ensures RewriteLine(RewriteLine(a + rest, Bullet), Numbered) == a + rest
  {
    var r := a + rest;
    assert r[0] == if a == [] then rest[0] else a[0];
    assert DigitRun(r) == 0;
  }
}

=== FILE: pattern.dfy ===
/** The fragment of JavaScript regular expressions the security screen uses:
    literal characters, `\s*` and `\s+`, searched anywhere in the input
    (`RegExp.prototype.test` with no anchors). Case-insensitive patterns are
    written in lower case and searched in the lowered input. */
module Pattern {
  import opened Text

  datatype Token =
    | Lit(c: char)
    | Spaces(atLeastOne: bool)   // `\s+` when true, `\s*` when false

  type Regex = seq<Token>

  /** The pattern matches some prefix of `t` (backtracking over `\s*`). */
  predicate MatchesPrefix(t: string, p: Regex)
    decreases |p|, |t|
  {
    if p == [] then true
    else match p[0]
      case Lit(c) => |t| > 0 && t[0] == c && MatchesPrefix(t[1..], p[1..])
      case Spaces(plus) =>
        if plus then |t| > 0 && IsSpace(t[0]) && MatchesPrefix(t[1..], [Spaces(false)] + p[1..])
        else MatchesPrefix(t, p[1..]) || (|t| > 0 && IsSpace(t[0]) && MatchesPrefix(t[1..], p))
  }

  /** `pattern.test(s)`: a match starts at some position of `s`. */
  predicate Search(s: string, p: Regex)
  {
    exists i :: 0 <= i <= |s| && MatchesPrefix(s[i..], p)
  }

  /** The regex of a plain phrase. */
  function Literal(w: string): (r: Regex)
    ensures |r| == |w|
    ensures forall i :: 0 <= i < |w| ==> r[i] == Lit(w[i])
  {
    seq(|w|, i requires 0 <= i < |w| => Lit(w[i]))
  }

  /** The regexes of a list of phrases. */
  function Literals(ws: seq<string>): (r: seq<Regex>)
    ensures |r| == |ws|
    ensures forall i :: 0 <= i < |ws| ==> r[i] == Literal(ws[i])
  {
    seq(|ws|, i requires 0 <= i < |ws| => Literal(ws[i]))
  }

  /** A literal regex matches at the front of `t` exactly when `t` starts
      with the phrase, and `rest` then has to match after it. */
  lemma {:induction false} LiteralThen(t: string, w: string, rest: Regex)
    ensures MatchesPrefix(t, Literal(w) + rest) <==> StartsWith(t, w) && MatchesPrefix(t[|w|..], rest)
    decreases |w|
  {
    if w != [] {
      assert (Literal(w) + rest)[0] == Lit(w[0]);
      assert (Literal(w) + rest)[1..] == Literal(w[1..]) + rest;
      if |t| > 0 {
        LiteralThen(t[1..], w[1..], rest);
        assert StartsWith(t, w) <==> t[0] == w[0] && StartsWith(t[1..], w[1..]) by {
          if |w| <= |t| {
            assert t[..|w|] == [t[0]] + t[1..][..|w| - 1];
            assert w == [w[0]] + w[1..];
          }
        }
        if |w| <= |t| {
          assert t[|w|..] == t[1..][|w[1..]|..];
        }
      }
    } else {
      assert Literal(w) + rest == rest;
    }
  }

  /** `test` with a phrase regex is `includes` of the phrase. */
  lemma SearchLiteral(s: string, w: string)
    ensures Search(s, Literal(w)) <==> Occurs(w, s)
  {
    assert Literal(w) + [] == Literal(w);
    forall i | 0 <= i <= |s|
      ensures MatchesPrefix(s[i..], Literal(w)) <==> StartsWith(s[i..], w)
    {
      LiteralThen(s[i..], w, []);
    }
  }

  /** A match of a prefix survives anything appended after it. */
  lemma {:induction false} PrefixMonotone(t: string, u: string, p: Regex)
    requires MatchesPrefix(t, p)
    ensures MatchesPrefix(t + u, p)
    decreases |p|, |t|
  {
    if p != [] {
      match p[0]
      case Lit(c) =>
        assert (t + u)[1..] == t[1..] + u;
        PrefixMonotone(t[1..], u, p[1..]);
      case Spaces(plus) =>
        if plus {
          assert (t + u)[1..] == t[1..] + u;
          PrefixMonotone(t[1..], u, [Spaces(false)] + p[1..]);
        } else if MatchesPrefix(t, p[1..]) {
          PrefixMonotone(t, u, p[1..]);
        } else {
          assert (t + u)[1..] == t[1..] + u;
          PrefixMonotone(t[1..], u, p);
        }
    }
  }

  /** A match found in a slice is a match in the whole text. */
  lemma SearchInfix(q: string, a: int, b: int, p: Regex)
    requires 0 <= a <= b <= |q|
    requires Search(q[a..b], p)
    ensures Search(q, p)
  {
    var i :| 0 <= i <= b - a && MatchesPrefix(q[a..b][i..], p);
    assert q[a + i..] == q[a..b][i..] + q[b..];
    PrefixMonotone(q[a..b][i..], q[b..], p);
  }

  /** `\s*` consumes any run of white space. */
  lemma {:induction false} StarSkipsSpaces(sp: string, t: string, rest: Regex)
    requires forall k :: 0 <= k < |sp| ==> IsSpace(sp[k])
    requires MatchesPrefix(t, rest)
    ensures MatchesPrefix(sp + t, [Spaces(false)] + rest)
    decreases |sp|
  {
    var p := [Spaces(false)] + rest;
    assert p[1..] == rest;
    if sp != [] {
      StarSkipsSpaces(sp[1..], t, rest);
      assert (sp + t)[0] == sp[0];
      assert (sp + t)[1..] == sp[1..] + t;
    } else {
      assert sp + t == t;
    }
  }

  /** A regex whose first token is a literal only matches text starting with
      that character. */
  lemma FirstLiteral(t: string, p: Regex)
    requires p != [] && p[0].Lit?
    ensures MatchesPrefix(t, p) ==> |t| > 0 && t[0] == p[0].c
  {
  }

  /** `\s+` after a phrase needs a white-space character right after it. */
  lemma PlusNeedsSpace(t: string, w: string, rest: Regex)
    ensures MatchesPrefix(t, Literal(w) + [Spaces(true)] + rest) ==> StartsWith(t, w) && |w| < |t| && IsSpace(t[|w|])
  {
    assert Literal(w) + [Spaces(true)] + rest == Literal(w) + ([Spaces(true)] + rest);
    LiteralThen(t, w, [Spaces(true)] + rest);
  }
}

=== FILE: prompt_manager.dfy ===
/** The prompt registry (`PromptManager` in utils/promptManager.js): the
    table of system prompts, the prompt currently in use, the append-only
    switch history, custom-prompt registration and its length and
    forbidden-word check. */
module PromptManager {
  import opened Base
  import opened Text

  const DefaultPromptId: string := "JKU_ASSISTANT"
  const CustomVersion: string := "1.0.0"
  const MinPromptLength: nat := 50
  const MaxPromptLength: nat := 10000

  /** Words whose presence (after lowering) rejects a custom prompt. */
  const ForbiddenWords: seq<string> := ["взлом", "взломать", "обойти", "хак"]

  const IssueNotString: string := "Промпт должен быть строкой"
  const IssueTooShort: string := "Промпт слишком короткий (минимум 50 символов)"
  const IssueTooLong: string := "Промпт слишком длинный (максимум 10000 символов)"
  const IssueForbidden: string := "Промпт содержит запрещенные слова"

  datatype Prompt = Prompt(
    id: string,
    name: string,
    description: string,
    text: string,      // the prompt body sent to the generator
    version: string,
    isCustom: bool)

  /** What the prompt listing exposes: no prompt body. */
  datatype PromptInfo = PromptInfo(id: string, name: string, description: string, version: string)

  /** One switch-history entry. `to` is the id as requested; an absent id
      (JavaScript `undefined`) is `None`. */
  datatype Transition = Transition(from: string, to: Option<string>, timestamp: int)

  /** `prompts` is the shared prompt table, `order` its key order as
      `Object.values` enumerates it, `current` the prompt object in use. */
  datatype Registry = Registry(
    prompts: map<string, Prompt>,
    order: seq<string>,
    current: Prompt,
    history: seq<Transition>)

  /** The key order lists every table key exactly once. */
  ghost predicate Valid(r: Registry)
  {
    && Distinct(r.order)
    && (forall k :: k in r.prompts <==> k in r.order)
  }

  /** The constructor: the table starts as the built-in prompts, the default
      assistant is current and the history is empty. */
  function Init(builtins: map<string, Prompt>, order: seq<string>): (r: Registry)
    requires Distinct(order) && (forall k :: k in builtins <==> k in order)
    requires DefaultPromptId in builtins
    ensures Valid(r)
    ensures r.current == builtins[DefaultPromptId] && r.history == []
    ensures r.prompts == builtins
  {
    Registry(builtins, order, builtins[DefaultPromptId], [])
  }

  function GetCurrentPrompt(r: Registry): Prompt
  {
    r.current
  }

  function GetPromptHistory(r: Registry): seq<Transition>
  {
    r.history
  }

  /** The table key JavaScript uses for a requested id (`undefined` becomes
      the key "undefined"). */
  function KeyOf(promptId: Option<string>): string
  {
    match promptId
    case Some(k) => k
    case None => "undefined"
  }

  /** `setPrompt`: with a known id, log the switch and make that prompt
      current (even if it already is); otherwise change nothing. */
  function SetPrompt(r: Registry, promptId: Option<string>, now: int): (res: (Registry, bool))
    ensures var (r', ok) := res;
      && (ok <==> KeyOf(promptId) in r.prompts)
      && (ok ==> && r'.current == r.prompts[KeyOf(promptId)]
                 && r'.history == r.history + [Transition(r.current.id, promptId, now)]
                 && r'.prompts == r.prompts && r'.order == r.order)
      && (!ok ==> r' == r)
  {
    var key := KeyOf(promptId);
    if key in r.prompts then
      (r.(current := r.prompts[key],
          history := r.history + [Transition(r.current.id, promptId, now)]), true)
    else
      (r, false)
  }

  function Info(p: Prompt): PromptInfo
  {
    PromptInfo(p.id, p.name, p.description, p.version)
  }

  /** `getAvailablePrompts`: one summary per table entry, in key order. */
  function GetAvailablePrompts(r: Registry): (list: seq<PromptInfo>)
    requires Valid(r)
    ensures |list| == |r.prompts|
    ensures forall k :: k in r.prompts ==> Info(r.prompts[k]) in list
    ensures forall j :: 0 <= j < |list| ==> exists k :: k in r.prompts && list[j] == Info(r.prompts[k])
    ensures |list| == |r.order|
    ensures forall j :: 0 <= j < |list| ==> r.order[j] in r.prompts && list[j] == Info(r.prompts[r.order[j]])
  {
    DistinctCard(r.order);
    assert Elems(r.order) == r.prompts.Keys;
    var list := seq(|r.order|, j requires 0 <= j < |r.order| => Info(r.prompts[r.order[j]]));
    assert forall k :: k in r.prompts ==> Info(r.prompts[k]) in list by {
      forall k | k in r.prompts ensures Info(r.prompts[k]) in list {
        var j :| 0 <= j < |r.order| && r.order[j] == k;
        assert list[j] == Info(r.prompts[k]);
      }
    }
    list
  }

  /** `createCustomPrompt`: store a custom prompt under `id`, replacing any
      entry already there (built-in or not) in its original place. */
  function CreateCustomPrompt(r: Registry, id: string, name: string, description: string, text: string)
    : (res: (Registry, Prompt))
    requires Valid(r)
    ensures var (r', p) := res;
      && Valid(r')
      && p.id == id && p.name == name && p.description == description && p.text == text
      && p.version == CustomVersion && p.isCustom
      && r'.prompts == r.prompts[id := p]
      && r'.current == r.current && r'.history == r.history
      && (id in r.prompts ==> r'.order == r.order)
      && (id !in r.prompts ==> r'.order == r.order + [id])
  {
    var p := Prompt(id, name, description, text, CustomVersion, true);
    var order := if id in r.prompts then r.order else r.order + [id];
    (r.(prompts := r.prompts[id := p], order := order), p)
  }

  datatype Validation = Validation(isValid: bool, issues: seq<string>)

  /** Some forbidden word occurs in the lowered text. */
  predicate HasForbiddenWord(prompt: string)
  {
    exists i :: 0 <= i < |ForbiddenWords| && Occurs(ForbiddenWords[i], Lower(prompt))
  }

  lemma IssuesDistinct()
    ensures IssueNotString != IssueTooShort && IssueNotString != IssueTooLong
    ensures IssueNotString != IssueForbidden && IssueTooShort != IssueTooLong
    ensures IssueTooShort != IssueForbidden && IssueTooLong != IssueForbidden
  {
    assert |IssueNotString| == 26 && |IssueTooShort| == 45;
    assert |IssueTooLong| == 48 && |IssueForbidden| == 33;
  }

  /** `validatePrompt` on a string: the empty string is reported as "not a
      string"; length bounds and the forbidden-word test each add at most one
      issue, independently. */
  function ValidatePromptText(prompt: string): (v: Validation)
    ensures v.isValid <==> v.issues == []
    ensures IssueNotString in v.issues <==> prompt == ""
    ensures IssueTooShort in v.issues <==> |prompt| < MinPromptLength
    ensures IssueTooLong in v.issues <==> |prompt| > MaxPromptLength
    ensures IssueForbidden in v.issues <==> HasForbiddenWord(prompt)
    ensures forall m :: m in v.issues ==> m in {IssueNotString, IssueTooShort, IssueTooLong, IssueForbidden}
    ensures Distinct(v.issues)
    ensures |v.issues| <= 2
    ensures IssueNotString in v.issues ==> v.issues[0] == IssueNotString
    ensures IssueForbidden in v.issues ==> v.issues[|v.issues| - 1] == IssueForbidden
  {
    var issues :=
      (if prompt == "" then [IssueNotString] else [])
      + (if |prompt| < MinPromptLength then [IssueTooShort] else [])
      + (if |prompt| > MaxPromptLength then [IssueTooLong] else [])
      + (if HasForbiddenWord(prompt) then [IssueForbidden] else []);
    IssuesDistinct();
    assert prompt == "" ==> !HasForbiddenWord(prompt);
    Validation(|issues| == 0, issues)
  }

  /** `validatePrompt` on any request value: every non-string throws a
      `TypeError` (`prompt.length` on null or undefined, `toLowerCase` on
      anything else), shown as `None`. */
  function ValidatePrompt(v: JsValue): (res: Option<Validation>)
    ensures res.None? <==> !v.Str?
    ensures v.Str? ==> res == Some(ValidatePromptText(v.s))
  {
    match v
    case Str(s) => Some(ValidatePromptText(s))
    case _ => None
  }

  /** Every forbidden word starts with a Cyrillic letter and lowering maps
      text below the Cyrillic block into itself, so such text never trips
      the forbidden-word test. */
  lemma NoCyrillicNoForbiddenWord(s: string)
    requires forall k :: 0 <= k < |s| ==> s[k] as int < 0x0400
    ensures !HasForbiddenWord(s)
  {
    var t := Lower(s);
    forall i, j | 0 <= i < |ForbiddenWords| && 0 <= j <= |t|
      ensures !StartsWith(t[j..], ForbiddenWords[i])
    {
      if j < |t| {
        assert t[j..][0] == LowerChar(s[j]);
        assert ForbiddenWords[i][0] as int >= 0x0400;
      }
    }
  }

  /** Switching never touches the table, so a valid registry stays valid. */
  lemma SetPromptKeepsValid(r: Registry, promptId: Option<string>, now: int)
    requires Valid(r)
    ensures Valid(SetPrompt(r, promptId, now).0)
  {
  }

  /** A run of switch requests, all at time `now`. */
  function SwitchAll(r: Registry, ids: seq<Option<string>>, now: int): Registry
    decreases |ids|
  {
    if ids == [] then r else SwitchAll(SetPrompt(r, ids[0], now).0, ids[1..], now)
  }

  /** How many of the requested ids name a table entry. */
  function CountKnown(prompts: map<string, Prompt>, ids: seq<Option<string>>): nat
    decreases |ids|
  {
    if ids == [] then 0
    else (if KeyOf(ids[0]) in prompts then 1 else 0) + CountKnown(prompts, ids[1..])
  }

  /** The history is append-only and grows by exactly one entry per switch
      to a known id, re-activations included; unknown ids add nothing. */
  lemma {:induction false} HistoryCountsSwitches(r: Registry, ids: seq<Option<string>>, now: int)
    ensures var r' := SwitchAll(r, ids, now);
      && |r'.history| == |r.history| + CountKnown(r.prompts, ids)
      && r'.history[..|r.history|] == r.history
      && r'.prompts == r.prompts
    decreases |ids|
  {
    if ids != [] {
      var r1 := SetPrompt(r, ids[0], now).0;
      HistoryCountsSwitches(r1, ids[1..], now);
      var r' := SwitchAll(r1, ids[1..], now);
      assert r'.history[..|r1.history|] == r1.history;
      assert r1.history[..|r.history|] == r.history;
      assert r'.history[..|r.history|] == r'.history[..|r1.history|][..|r.history|];
    }
  }

  /** A freshly registered custom prompt can be activated at once, and it is
      then the current prompt. */
  lemma CustomThenActivate(r: Registry, id: string, name: string, description: string, text: string, now: int)
    requires Valid(r)
    ensures var (r1, p) := CreateCustomPrompt(r, id, name, description, text);
      var (r2, ok) := SetPrompt(r1, Some(id), now);
      && ok && r2.current == p
      && r2.history == r.history + [Transition(r.current.id, Some(id), now)]
  {
  }

  /** Registering a custom prompt adds its summary to the listing, and the
      listing grows by one exactly when the id was new. */
  lemma CustomPromptListed(r: Registry, id: string, name: string, description: string, text: string)
    requires Valid(r)
    ensures var (r1, p) := CreateCustomPrompt(r, id, name, description, text);
      && Info(p) in GetAvailablePrompts(r1)
      && |GetAvailablePrompts(r1)| == |GetAvailablePrompts(r)| + (if id in r.prompts then 0 else 1)
  {
    var (r1, p) := CreateCustomPrompt(r, id, name, description, text);
    assert id in r1.prompts && r1.prompts[id] == p;
    if id !in r.prompts {
      assert r1.prompts.Keys == r.prompts.Keys + {id};
    } else {
      assert r1.prompts.Keys == r.prompts.Keys;
    }
  }
}

=== FILE: prompt_monitoring.dfy ===
/** Per-prompt usage metrics (`PromptMonitoring` in
    utils/promptMonitoring.js): four counters per key `prompt_<id>`, created
    on first use and only ever increased; rates and the average response
    time are derived on read, as exact rationals here. */
module PromptMonitoring {
  import opened Base
  import opened Text

  const KeyPrefix: string := "prompt_"

  datatype Usage = Usage(usageCount: nat, totalResponseTime: int, successCount: nat, errorCount: nat)

  type Metrics = map<string, Usage>

  datatype Stats = Stats(usageCount: nat, averageResponseTime: real, successRate: real, errorRate: real)

  /** One `trackPromptUsage(promptId, responseTime, success)` call. */
  datatype Call = Call(promptId: string, responseTime: int, success: bool)

  const Fresh: Usage := Usage(0, 0, 0, 0)

  function Key(id: string): string
  {
    KeyPrefix + id
  }

  /** The record of `id`, or the zero record the source starts from. */
  function Lookup(m: Metrics, id: string): Usage
  {
    if Key(id) in m then m[Key(id)] else Fresh
  }

  /** Every stored record was created by a tracked call: its key carries the
      prefix, it counts at least one call, and every call either succeeded
      or failed. */
  ghost predicate Valid(m: Metrics)
  {
    forall k :: k in m ==>
      && StartsWith(k, KeyPrefix)
      && m[k].usageCount >= 1
      && m[k].usageCount == m[k].successCount + m[k].errorCount
  }

  /** `trackPromptUsage`: one more use, its time added, and exactly one of
      the success and error counters bumped. Other keys are untouched. */
  function TrackPromptUsage(m: Metrics, id: string, responseTime: int, success: bool): (m': Metrics)
    ensures m'.Keys == m.Keys + {Key(id)}
    ensures var u, u' := Lookup(m, id), m'[Key(id)];
      && u'.usageCount == u.usageCount + 1
      && u'.totalResponseTime == u.totalResponseTime + responseTime
      && (success ==> u'.successCount == u.successCount + 1 && u'.errorCount == u.errorCount)
      && (!success ==> u'.errorCount == u.errorCount + 1 && u'.successCount == u.successCount)
    ensures forall k :: k in m && k != Key(id) ==> m'[k] == m[k]
  {
    m[Key(id) := Bump(Lookup(m, id), responseTime, success)]
  }

  /** The record after one more call. */
  function Bump(u: Usage, responseTime: int, success: bool): Usage
  {
    Usage(u.usageCount + 1, u.totalResponseTime + responseTime,
          if success then u.successCount + 1 else u.successCount,
          if success then u.errorCount else u.errorCount + 1)
  }

  /** Tracking keeps every record consistent: the counters still add up. */
  lemma TrackKeepsValid(m: Metrics, id: string, responseTime: int, success: bool)
    requires Valid(m)
    ensures Valid(TrackPromptUsage(m, id, responseTime, success))
  {
    assert StartsWith(Key(id), KeyPrefix);
  }

  function Track(m: Metrics, c: Call): Metrics
  {
    TrackPromptUsage(m, c.promptId, c.responseTime, c.success)
  }

  /** `getPromptStats`: `None` (JavaScript `null`) for an id never tracked,
      otherwise the derived rates. */
  function GetPromptStats(m: Metrics, id: string): (r: Option<Stats>)
    requires Valid(m)
    ensures r.None? <==> Key(id) !in m
    ensures r.Some? ==> var u, s := m[Key(id)], r.value;
      && s.usageCount == u.usageCount
      && s.successRate + s.errorRate == 1.0
      && s.averageResponseTime * (u.usageCount as real) == u.totalResponseTime as real
      && s.successRate * (u.usageCount as real) == u.successCount as real
  {
    if Key(id) !in m then None
    else
      var u := m[Key(id)];
      var n := u.usageCount as real;
      Some(Stats(u.usageCount, u.totalResponseTime as real / n,
                 u.successCount as real / n, u.errorCount as real / n))
  }

  /** Every stored key is the key of the id `replace` recovers from it. */
  lemma StripKey(k: string)
    requires StartsWith(k, KeyPrefix)
    ensures Key(ReplaceFirst(k, KeyPrefix, "")) == k
  {
    assert k == KeyPrefix + k[|KeyPrefix|..];
    ReplaceLeadingPrefix(KeyPrefix, k[|KeyPrefix|..]);
  }

  /** `this.getPromptStats(key.replace('prompt_', ''))` for a stored key. */
  function StatsOfKey(m: Metrics, k: string): Stats
    requires Valid(m) && k in m
  {
    StripKey(k);
    GetPromptStats(m, ReplaceFirst(k, KeyPrefix, "")).value
  }

  /** `getAllMetrics`: for every stored key, the stats of the id obtained by
      removing `prompt_` from it (result keys keep the prefix). */
  function GetAllMetrics(m: Metrics): (r: map<string, Stats>)
    requires Valid(m)
    ensures r.Keys == m.Keys
    ensures forall id :: Key(id) in m ==> r[Key(id)] == GetPromptStats(m, id).value
  {
    var r := map k | k in m :: StatsOfKey(m, k);
    assert forall id :: Key(id) in m ==> ReplaceFirst(Key(id), KeyPrefix, "") == id by {
      forall id | Key(id) in m ensures ReplaceFirst(Key(id), KeyPrefix, "") == id {
        ReplaceLeadingPrefix(KeyPrefix, id);
      }
    }
    r
  }

  /** A run of tracked calls, in order. */
  function TrackAll(m: Metrics, cs: seq<Call>): Metrics
    decreases |cs|
  {
    if cs == [] then m else TrackAll(Track(m, cs[0]), cs[1..])
  }

  lemma BumpCommutes(u: Usage, a: Call, b: Call)
    ensures Bump(Bump(u, a.responseTime, a.success), b.responseTime, b.success)
         == Bump(Bump(u, b.responseTime, b.success), a.responseTime, a.success)
  {
  }

  /** Two calls commute. */
  lemma TrackCommutes(m: Metrics, a: Call, b: Call)
    ensures Track(Track(m, a), b) == Track(Track(m, b), a)
  {
    var ka, kb := Key(a.promptId), Key(b.promptId);
    var ua, ub := Lookup(m, a.promptId), Lookup(m, b.promptId);
    var ma := m[ka := Bump(ua, a.responseTime, a.success)];
    var mb := m[kb := Bump(ub, b.responseTime, b.success)];
    assert Track(m, a) == ma;
    assert Track(m, b) == mb;
    if ka == kb {
      assert ua == ub;
      assert Lookup(ma, b.promptId) == Bump(ua, a.responseTime, a.success);
      assert Lookup(mb, a.promptId) == Bump(ub, b.responseTime, b.success);
      BumpCommutes(ua, a, b);
    } else {
      assert Lookup(ma, b.promptId) == ub;
      assert Lookup(mb, a.promptId) == ua;
    }
  }

  /** A call anywhere in a run can be performed first instead. */
  lemma {:induction false} MoveToFront(m: Metrics, xs: seq<Call>, c: Call, ys: seq<Call>)
    ensures TrackAll(m, xs + [c] + ys) == TrackAll(Track(m, c), xs + ys)
    decreases |xs|
  {
    if xs == [] {
      assert xs + [c] + ys == [c] + ys;
      assert xs + ys == ys;
      assert ([c] + ys)[1..] == ys;
    } else {
      assert (xs + [c] + ys)[0] == xs[0];
      assert (xs + [c] + ys)[1..] == xs[1..] + [c] + ys;
      assert (xs + ys)[0] == xs[0];
      assert (xs + ys)[1..] == xs[1..] + ys;
      MoveToFront(Track(m, xs[0]), xs[1..], c, ys);
      TrackCommutes(m, xs[0], c);
    }
  }

  /** The final counters depend only on which calls were made, not on the
      order in which they completed. */
  lemma {:induction false} OrderIndependent(m: Metrics, cs: seq<Call>, ds: seq<Call>)
    requires multiset(cs) == multiset(ds)
    ensures TrackAll(m, cs) == TrackAll(m, ds)
    decreases |cs|
  {
    if cs == [] {
      assert |ds| == |multiset(ds)| == 0;
    } else {
      var c := cs[0];
      assert c in multiset(ds);
      var i :| 0 <= i < |ds| && ds[i] == c;
      var xs, ys := ds[..i], ds[i + 1..];
      RemoveMatched(cs, ds, i);
      OrderIndependent(Track(m, c), cs[1..], xs + ys);
      assert ds == xs + [c] + ys;
      MoveToFront(m, xs, c, ys);
    }
  }

  /** Taking the same call out of two permutations leaves permutations. */
  lemma RemoveMatched(cs: seq<Call>, ds: seq<Call>, i: int)
    requires multiset(cs) == multiset(ds)
    requires cs != [] && 0 <= i < |ds| && ds[i] == cs[0]
    ensures multiset(cs[1..]) == multiset(ds[..i] + ds[i + 1..])
  {
    var rest := ds[..i] + ds[i + 1..];
    assert cs == [cs[0]] + cs[1..];
    assert ds == ds[..i] + [ds[i]] + ds[i + 1..];
    assert multiset(ds) == multiset(rest) + multiset{cs[0]};
    assert multiset(cs) == multiset(cs[1..]) + multiset{cs[0]};
    forall x: Call
      ensures multiset(cs[1..])[x] == multiset(rest)[x]
    {
      assert multiset(cs)[x] == multiset(ds)[x];
    }
  }

  /** Number of calls in a run for `id`, and how many of them succeeded. */
  function CallsFor(cs: seq<Call>, id: string): nat
    decreases |cs|
  {
    if cs == [] then 0 else (if cs[0].promptId == id then 1 else 0) + CallsFor(cs[1..], id)
  }

  function SuccessesFor(cs: seq<Call>, id: string): nat
    decreases |cs|
  {
    if cs == [] then 0
    else (if cs[0].promptId == id && cs[0].success then 1 else 0) + SuccessesFor(cs[1..], id)
  }

  function TimeFor(cs: seq<Call>, id: string): int
    decreases |cs|
  {
    if cs == [] then 0
    else (if cs[0].promptId == id then cs[0].responseTime else 0) + TimeFor(cs[1..], id)
  }

  /** Closed form of a run: each counter of `id` grows by exactly the calls
      for `id`, and errors are the calls that did not succeed. */
  lemma {:induction false} TrackAllTally(m: Metrics, cs: seq<Call>, id: string)
    ensures var u, u' := Lookup(m, id), Lookup(TrackAll(m, cs), id);
      && u'.usageCount == u.usageCount + CallsFor(cs, id)
      && u'.successCount == u.successCount + SuccessesFor(cs, id)
      && u'.errorCount == u.errorCount + (CallsFor(cs, id) - SuccessesFor(cs, id))
      && u'.totalResponseTime == u.totalResponseTime + TimeFor(cs, id)
    decreases |cs|
  {
    if cs != [] {
      TrackAllTally(Track(m, cs[0]), cs[1..], id);
      assert Key(cs[0].promptId) == Key(id) <==> cs[0].promptId == id by {
        if Key(cs[0].promptId) == Key(id) {
          assert cs[0].promptId == Key(cs[0].promptId)[|KeyPrefix|..];
          assert id == Key(id)[|KeyPrefix|..];
        }
      }
      SuccessesAtMostCalls(cs[1..], id);
    }
  }

  lemma {:induction false} SuccessesAtMostCalls(cs: seq<Call>, id: string)
    ensures SuccessesFor(cs, id) <= CallsFor(cs, id)
    decreases |cs|
  {
    if cs != [] {
      SuccessesAtMostCalls(cs[1..], id);
    }
  }

  /** N successes and M failures recorded for one prompt from an empty store
      give usage N+M and success rate N/(N+M), in any order. */
  lemma SuccessRateOfRun(cs: seq<Call>, id: string)
    requires cs != []
    requires forall j :: 0 <= j < |cs| ==> cs[j].promptId == id
    ensures var m := TrackAll(map[], cs);
      && Valid(m)
      && GetPromptStats(m, id).Some?
      && GetPromptStats(m, id).value.usageCount == |cs|
      && GetPromptStats(m, id).value.successRate == SuccessesFor(cs, id) as real / |cs| as real
  {
    TrackAllTally(map[], cs, id);
    AllCallsFor(cs, id);
    TrackAllValid(map[], cs);
  }

  lemma {:induction false} AllCallsFor(cs: seq<Call>, id: string)
    requires forall j :: 0 <= j < |cs| ==> cs[j].promptId == id
    ensures CallsFor(cs, id) == |cs|
    decreases |cs|
  {
    if cs != [] {
      AllCallsFor(cs[1..], id);
    }
  }

  lemma {:induction false} TrackAllValid(m: Metrics, cs: seq<Call>)
    requires Valid(m)
    ensures Valid(TrackAll(m, cs))
    decreases |cs|
  {
    if cs != [] {
      TrackKeepsValid(m, cs[0].promptId, cs[0].responseTime, cs[0].success);
      TrackAllValid(Track(m, cs[0]), cs[1..]);
    }
  }
}

=== FILE: prompt_security.dfy ===
/** The heuristic screen for prompt text (`PromptSecurity` in
    utils/promptSecurity.js): four fixed lists of phrases and small regular
    expressions, each match contributing one issue. Nothing in the server
    calls it; it is modelled on its own. */
module PromptSecurity {
  import opened Base
  import opened Text
  import opened Pattern

  /** Role-hijack phrases, matched with `includes` on the lowered prompt. */
  const ForbiddenPhrases: seq<string> := [
    "ignore previous instructions",
    "forget everything",
    "you are now",
    "pretend to be",
    "act as if"
  ]

  /** The phrases as regexes, so that all four checks share one filter. */
  const ForbiddenPatterns: seq<Regex> := Literals(ForbiddenPhrases)

  /** `/system\s*:/i`, `/assistant\s*:/i`, `/user\s*:/i`, `/<script/i`, `/javascript:/i`. */
  const InjectionPatterns: seq<Regex> := [
    Literal("system") + [Spaces(false), Lit(':')],
    Literal("assistant") + [Spaces(false), Lit(':')],
    Literal("user") + [Spaces(false), Lit(':')],
    Literal("<script"),
    Literal("javascript:")
  ]

  /** `/password/i`, `/secret/i`, `/private\s+key/i`, `/api\s+key/i`, `/token/i`. */
  const LeakagePatterns: seq<Regex> := [
    Literal("password"),
    Literal("secret"),
    Literal("private") + [Spaces(true)] + Literal("key"),
    Literal("api") + [Spaces(true)] + Literal("key"),
    Literal("token")
  ]

  /** `/override/i`, `/bypass/i`, `/hack/i`, `/exploit/i`, `/vulnerability/i`. */
  const BypassPatterns: seq<Regex> := [
    Literal("override"),
    Literal("bypass"),
    Literal("hack"),
    Literal("exploit"),
    Literal("vulnerability")
  ]

  const InjectionIssue: string := "Обнаружена попытка инъекции промпта"
  const LeakageIssue: string := "Обнаружена утечка чувствительных данных"
  const BypassIssue: string := "Обнаружена попытка обхода системы"
  const ForbiddenIssuePrefix: string := "Запрещенное слово: "

  function ForbiddenIssue(phrase: string): string
  {
    ForbiddenIssuePrefix + phrase
  }

  datatype CheckResult = CheckResult(hasIssues: bool, issues: seq<string>)

  datatype Verdict = Verdict(isValid: bool, issues: seq<string>)

  /** Indices, in list order, of the patterns from `k` on that match `s`
      (the `filter` each check runs over its list). */
  function Hits(s: string, pats: seq<Regex>, k: nat): (r: seq<nat>)
    requires k <= |pats|
    ensures |r| <= |pats| - k
    ensures forall j :: 0 <= j < |r| ==> k <= r[j] < |pats| && Search(s, pats[r[j]])
    ensures forall i :: k <= i < |pats| && Search(s, pats[i]) ==> i in r
    ensures forall j, j' :: 0 <= j < j' < |r| ==> r[j] < r[j']
    decreases |pats| - k
  {
    if k == |pats| then []
    else (if Search(s, pats[k]) then [k] else []) + Hits(s, pats, k + 1)
  }

  /** The patterns of a list that match `s`. */
  ghost function MatchingIndices(s: string, pats: seq<Regex>): set<nat>
  {
    set i: nat | i < |pats| && Search(s, pats[i])
  }

  /** The filter finds each matching pattern exactly once. */
  lemma HitsCountMatches(s: string, pats: seq<Regex>)
    ensures |Hits(s, pats, 0)| == |MatchingIndices(s, pats)|
  {
    var h := Hits(s, pats, 0);
    DistinctCard(h);
    assert Elems(h) == MatchingIndices(s, pats);
  }

  /** One check of the injection, leakage or bypass kind: every matching
      pattern contributes the same fixed issue. */
  function CheckPatterns(prompt: string, pats: seq<Regex>, issue: string): (r: CheckResult)
    ensures r.hasIssues <==> r.issues != []
    ensures r.hasIssues <==> exists i :: 0 <= i < |pats| && Search(Lower(prompt), pats[i])
    ensures |r.issues| == |MatchingIndices(Lower(prompt), pats)|
    ensures forall m :: m in r.issues ==> m == issue
  {
    var h := Hits(Lower(prompt), pats, 0);
    HitsCountMatches(Lower(prompt), pats);
    CheckResult(|h| > 0, seq(|h|, _ => issue))
  }

  /** `checkForbiddenWords`: one issue per listed phrase found in the
      lowered prompt, naming that phrase. */
  function CheckForbiddenWords(prompt: string): (r: CheckResult)
    ensures r.hasIssues <==> r.issues != []
    ensures |r.issues| == |MatchingIndices(Lower(prompt), ForbiddenPatterns)|
  {
    var h := Hits(Lower(prompt), ForbiddenPatterns, 0);
    HitsCountMatches(Lower(prompt), ForbiddenPatterns);
    CheckResult(|h| > 0, NamePhrases(h))
  }

  /** The issue of each hit, naming its phrase. */
  function NamePhrases(h: seq<nat>): (r: seq<string>)
    requires forall j :: 0 <= j < |h| ==> h[j] < 5
    ensures |r| == |h|
    ensures forall j :: 0 <= j < |h| ==> r[j] == ForbiddenIssue(ForbiddenPhrases[h[j]])
  {
    seq(|h|, j requires 0 <= j < |h| => ForbiddenIssue(ForbiddenPhrases[h[j]]))
  }

  /** An issue of the forbidden-phrase check names exactly one phrase. */
  lemma ForbiddenIssueNamesPhrase(i: int, k: int)
    requires 0 <= i < 5 && 0 <= k < 5
    requires ForbiddenIssue(ForbiddenPhrases[i]) == ForbiddenIssue(ForbiddenPhrases[k])
    ensures i == k
  {
    var n := |ForbiddenIssuePrefix|;
    assert ForbiddenPhrases[i] == ForbiddenIssue(ForbiddenPhrases[i])[n..];
    assert ForbiddenPhrases[k] == ForbiddenIssue(ForbiddenPhrases[k])[n..];
    assert |ForbiddenPhrases[i]| == |ForbiddenPhrases[k]|;
  }

  /** The forbidden-phrase check names a phrase exactly when the lowered
      prompt `includes` it. */
  lemma ForbiddenCheckIffIncludes(prompt: string, i: int)
    requires 0 <= i < 5
    ensures ForbiddenIssue(ForbiddenPhrases[i]) in CheckForbiddenWords(prompt).issues
            <==> Occurs(ForbiddenPhrases[i], Lower(prompt))
  {
    var s := Lower(prompt);
    var h := Hits(s, ForbiddenPatterns, 0);
    var issues := CheckForbiddenWords(prompt).issues;
    assert issues == NamePhrases(h);
    SearchLiteral(s, ForbiddenPhrases[i]);
    if ForbiddenIssue(ForbiddenPhrases[i]) in issues {
      var j :| 0 <= j < |issues| && issues[j] == ForbiddenIssue(ForbiddenPhrases[i]);
      ForbiddenIssueNamesPhrase(i, h[j]);
    }
    if Occurs(ForbiddenPhrases[i], s) {
      var j :| 0 <= j < |h| && h[j] == i;
      assert issues[j] == ForbiddenIssue(ForbiddenPhrases[i]);
    }
  }

  function CheckPromptInjection(prompt: string): CheckResult
  {
    CheckPatterns(prompt, InjectionPatterns, InjectionIssue)
  }

  function CheckDataLeakage(prompt: string): CheckResult
  {
    CheckPatterns(prompt, LeakagePatterns, LeakageIssue)
  }

  function CheckSystemBypass(prompt: string): CheckResult
  {
    CheckPatterns(prompt, BypassPatterns, BypassIssue)
  }

  /** `PromptSecurity.validatePrompt`: the findings of the four checks in
      order; valid exactly when there are none. */
  function ValidatePrompt(prompt: string): (r: Verdict)
    ensures r.isValid <==> r.issues == []
    ensures r.issues == CheckForbiddenWords(prompt).issues + CheckPromptInjection(prompt).issues
                        + CheckDataLeakage(prompt).issues + CheckSystemBypass(prompt).issues
  {
    var checks := [CheckForbiddenWords(prompt), CheckPromptInjection(prompt),
                   CheckDataLeakage(prompt), CheckSystemBypass(prompt)];
    var issues := (if checks[0].hasIssues then checks[0].issues else [])
                  + (if checks[1].hasIssues then checks[1].issues else [])
                  + (if checks[2].hasIssues then checks[2].issues else [])
                  + (if checks[3].hasIssues then checks[3].issues else []);
    Verdict(|issues| == 0, issues)
  }

  /** Each check filters a fixed list of five, so at most 20 issues. */
  lemma ScreenIssueBound(prompt: string)
    ensures |ValidatePrompt(prompt).issues| <= 20
  {
    var s := Lower(prompt);
    HitsCountMatches(s, ForbiddenPatterns);
    HitsCountMatches(s, InjectionPatterns);
    HitsCountMatches(s, LeakagePatterns);
    HitsCountMatches(s, BypassPatterns);
  }

  /** The reference meaning of "suspicious": some phrase or pattern of the
      four lists is found in the prompt, ignoring case. */
  ghost predicate Suspicious(prompt: string)
  {
    || (exists i :: 0 <= i < 5 && Occurs(ForbiddenPhrases[i], Lower(prompt)))
    || (exists i :: 0 <= i < 5 && Search(Lower(prompt), InjectionPatterns[i]))
    || (exists i :: 0 <= i < 5 && Search(Lower(prompt), LeakagePatterns[i]))
    || (exists i :: 0 <= i < 5 && Search(Lower(prompt), BypassPatterns[i]))
  }

  /** The screen accepts exactly the prompts that are not suspicious. */
  lemma ScreenValidIffNotSuspicious(prompt: string)
    ensures ValidatePrompt(prompt).isValid <==> !Suspicious(prompt)
  {
    forall i | 0 <= i < 5
      ensures Search(Lower(prompt), ForbiddenPatterns[i]) <==> Occurs(ForbiddenPhrases[i], Lower(prompt))
    {
      SearchLiteral(Lower(prompt), ForbiddenPhrases[i]);
    }
  }

  /** A suspicious slice makes the whole text suspicious. */
  lemma SuspiciousInfix(q: string, a: int, b: int)
    requires 0 <= a <= b <= |q|
    ensures Suspicious(q[a..b]) ==> Suspicious(q)
  {
    var p := q[a..b];
    LowerSlice(q, a, b);
    forall i | 0 <= i < 5 && Occurs(ForbiddenPhrases[i], Lower(p))
      ensures Occurs(ForbiddenPhrases[i], Lower(q))
    {
      OccursInfix(ForbiddenPhrases[i], Lower(q), a, b);
    }
    forall pats: seq<Regex>, i | 0 <= i < |pats| && Search(Lower(p), pats[i])
      ensures Search(Lower(q), pats[i])
    {
      SearchInfix(Lower(q), a, b, pats[i]);
    }
  }

  /** Every check is a containment test, so a piece of a prompt that passes
      the screen passes it too. */
  lemma ScreenMonotone(q: string, a: int, b: int)
    requires 0 <= a <= b <= |q|
    requires ValidatePrompt(q).isValid
    ensures ValidatePrompt(q[a..b]).isValid
  {
    SuspiciousInfix(q, a, b);
    ScreenValidIffNotSuspicious(q);
    ScreenValidIffNotSuspicious(q[a..b]);
  }

  /** White space is allowed between a role name and its colon: a prompt
      holding `System :` (any letter case, any run of white space) is
      reported as an injection. */
  lemma {:induction false} SpaceBeforeColonIsInjection(pre: string, role: string, sp: string, post: string)
    requires Lower(role) == "system"
    requires forall k :: 0 <= k < |sp| ==> IsSpace(sp[k])
    ensures CheckPromptInjection(pre + role + sp + ":" + post).hasIssues
  {
    var s := pre + role + sp + ":" + post;
    var n := |pre|;
    var m := n + 6 + |sp|;
    var low := Lower(s);
    assert s[n..n + 6] == role;
    LowerSlice(s, n, n + 6);
    assert low[n..n + 6] == "system";
    assert s[m] == ':';
    var t := low[n..];
    var tail := low[m..];
    assert t[6..] == sp + tail by {
      forall k | 0 <= k < |sp| ensures t[6 + k] == sp[k] {
        assert s[n + 6 + k] == sp[k];
      }
    }
    assert MatchesPrefix(tail, [Lit(':')]) by {
      assert tail[0] == ':';
      assert [Lit(':')][1..] == [];
    }
    StarSkipsSpaces(sp, tail, [Lit(':')]);
    assert [Spaces(false)] + [Lit(':')] == [Spaces(false), Lit(':')];
    LiteralThen(t, "system", [Spaces(false), Lit(':')]);
    assert t[..6] == "system";
    assert MatchesPrefix(low[n..], InjectionPatterns[0]);
  }

  /** `private key` and `api key` need white space between the words: a
      match of either starts with the first word, and a white-space
      character follows it at once. */
  lemma KeyPhrasesNeedSpace(t: string)
    ensures MatchesPrefix(t, LeakagePatterns[2]) ==> StartsWith(t, "private") && |t| > 7 && IsSpace(t[7])
    ensures MatchesPrefix(t, LeakagePatterns[3]) ==> StartsWith(t, "api") && |t| > 3 && IsSpace(t[3])
  {
    PlusNeedsSpace(t, "private", Literal("key"));
    PlusNeedsSpace(t, "api", Literal("key"));
  }

  /** `password`, `secret` and `token` are plain substring tests. */
  lemma PlainSensitiveWords(s: string)
    ensures Search(Lower(s), LeakagePatterns[0]) <==> Occurs("password", Lower(s))
    ensures Search(Lower(s), LeakagePatterns[1]) <==> Occurs("secret", Lower(s))
    ensures Search(Lower(s), LeakagePatterns[4]) <==> Occurs("token", Lower(s))
  {
    SearchLiteral(Lower(s), "password");
    SearchLiteral(Lower(s), "secret");
    SearchLiteral(Lower(s), "token");
  }

  /** The characters the phrases and patterns start with. */
  const LeadingChars: set<char> := {'i', 'f', 'y', 'p', 'a', 's', 'u', '<', 'j', 't', 'o', 'b', 'h', 'e', 'v'}

  /** No pattern starting with a leading character matches text that has none. */
  lemma NoLeadingCharNoMatch(t: string, pats: seq<Regex>)
    requires forall k :: 0 <= k < |t| ==> t[k] !in LeadingChars
    requires forall i :: 0 <= i < |pats| ==> pats[i] != [] && pats[i][0].Lit? && pats[i][0].c in LeadingChars
    ensures forall i :: 0 <= i < |pats| ==> !Search(t, pats[i])
  {
    forall i, j | 0 <= i < |pats| && 0 <= j <= |t|
      ensures !MatchesPrefix(t[j..], pats[i])
    {
      FirstLiteral(t[j..], pats[i]);
    }
  }

  /** A prompt none of whose lowered characters can start a phrase or
      pattern passes the screen; any all-Cyrillic prompt is one. */
  lemma BenignPromptAccepted(s: string)
    requires forall k :: 0 <= k < |s| ==> LowerChar(s[k]) !in LeadingChars
    ensures ValidatePrompt(s).isValid
  {
    var t := Lower(s);
    assert forall i :: 0 <= i < 5 ==> ForbiddenPatterns[i][0] == Lit(ForbiddenPhrases[i][0]);
    NoLeadingCharNoMatch(t, ForbiddenPatterns);
    NoLeadingCharNoMatch(t, InjectionPatterns);
    NoLeadingCharNoMatch(t, LeakagePatterns);
    NoLeadingCharNoMatch(t, BypassPatterns);
    assert MatchingIndices(t, ForbiddenPatterns) == {};
  }

  /** The override phrase is rejected in any letter case, and the issue
      names it. */
  lemma OverridePhraseRejected(pre: string, phrase: string, post: string)
    requires Lower(phrase) == ForbiddenPhrases[0]
    ensures !ValidatePrompt(pre + phrase + post).isValid
    ensures ForbiddenIssue(ForbiddenPhrases[0]) in ValidatePrompt(pre + phrase + post).issues
  {
    var s := pre + phrase + post;
    assert s[|pre|..|pre| + |phrase|] == phrase;
    LowerSlice(s, |pre|, |pre| + |phrase|);
    assert StartsWith(Lower(s)[|pre|..], ForbiddenPhrases[0]);
    ForbiddenCheckIffIncludes(s, 0);
  }
}

=== FILE: server.dfy ===
/** The chat backend of backend/server.js: the `getSystemPrompt` middleware,
    `validateRequest`, the outcome logic of `generateGeminiResponse`, and the
    `/api/prompts/switch`, `/api/prompts/custom` and `/api/chat` handlers.
    The generator call is an abstract outcome; clocks are parameters; the
    spreadsheet append is an emitted audit event. */
module Server {
  import opened Base
  import PromptManager
  import PromptMonitoring
  import PromptSecurity
  import Text

  /** Bounds from backend/config.js (`validation`). */
  const MinMessageLength: nat := 1
  const MaxMessageLength: nat := 1000
  const MaxPromptCount: nat := 1000

  const ErrMessageRequired: string := "Поле \"message\" обязательно"
  const ErrMessageNotString: string := "Поле \"message\" должно быть строкой"
  const ErrMessageTooShort: string := "Сообщение должно содержать минимум 1 символ"
  const ErrMessageTooLong: string := "Сообщение не должно превышать 1000 символов"
  const ErrCountNotInteger: string := "Поле \"promptcount\" должно быть целым числом"
  const ErrCountOutOfRange: string := "Поле \"promptcount\" должно быть от 1 до 1000"

  const UnknownPromptError: string := "Неверный ID промпта"
  const ValidationError: string := "Ошибка валидации"
  const ServerError: string := "Внутренняя ошибка сервера"
  const FallbackReply: string :=
    "Извините, произошла техническая ошибка. Пожалуйста, попробуйте позже или обратитесь в службу поддержки."
  const SwitchError: string := "Промпт не найден"
  /** The production `message` of the global error handler. */
  const HandlerMessage: string := "Что-то пошло не так"

  /** Joins the prompt body and the user's question in the generator input. */
  const QuestionMarker: string := "\n\nВопрос пользователя: "

  /** The body of a custom-prompt registration. The prompt text may be any
      JSON value; id, name and description are taken to be strings. */
  datatype CustomBody = CustomBody(id: string, name: string, description: string, prompt: JsValue)

  /** The two fields of a chat request body; an absent field is `Undefined`. */
  datatype ChatBody = ChatBody(message: JsValue, promptcount: JsValue)

  /** What the generator call ends in. `Candidate` is a first candidate part
      carrying a string `text`; `NoText` is a first part without one; the
      other three are the thrown cases (unexpected shape, HTTP error,
      timeout). */
  datatype Outcome =
    | Candidate(text: string)
    | NoText
    | Malformed
    | Transport
    | Timeout
  {
    predicate Failure() { Malformed? || Transport? || Timeout? }
  }

  datatype Body =
    | UnknownPrompt(error: string, availablePrompts: seq<PromptManager.PromptInfo>)
    | ValidationFailed(error: string, details: seq<string>)
    | Reply(reply: string)
    | Fallback(reply: string, error: string)
    | Switched(currentPrompt: PromptManager.Prompt)
    | SwitchFailed(error: string)
    | CustomRejected(errors: seq<string>)
    | CustomCreated(prompt: PromptManager.Prompt)
    | InternalError(error: string, message: string)

  datatype Response = Response(status: nat, body: Body)

  /** One spreadsheet row as the handler hands it over: counter, question,
      answer (the timestamp is taken by the logger). */
  datatype AuditEvent = AuditEvent(promptCount: int, question: string, answer: string)

  /** The server's shared state: the prompt registry and the usage metrics. */
  datatype State = State(registry: PromptManager.Registry, metrics: PromptMonitoring.Metrics)

  /** The result of one chat request: the new state, the response, the text
      sent to the generator (if the generator was called) and the audit event
      (if one was dispatched). */
  datatype ChatStep = ChatStep(
    state: State,
    response: Response,
    generatorInput: Option<string>,
    audit: Option<AuditEvent>)

  /** What a well-formed message is, stated directly. */
  predicate MessageOk(v: JsValue)
  {
    v.Str? && MinMessageLength <= |v.s| <= MaxMessageLength
  }

  /** What a well-formed counter is: absent, or an integer in 1..1000. */
  predicate CountOk(v: JsValue)
  {
    v.Undefined? || (v.Num? && IsInteger(v.n) && 1.0 <= v.n <= MaxPromptCount as real)
  }

  lemma MessagesDistinct()
    ensures ErrMessageRequired != ErrMessageNotString && ErrMessageRequired != ErrMessageTooLong
    ensures ErrMessageNotString != ErrMessageTooLong
    ensures ErrCountNotInteger != ErrCountOutOfRange
    ensures ErrMessageRequired != ErrCountNotInteger && ErrMessageRequired != ErrCountOutOfRange
    ensures ErrMessageNotString != ErrCountNotInteger && ErrMessageNotString != ErrCountOutOfRange
    ensures ErrMessageTooShort != ErrCountNotInteger && ErrMessageTooShort != ErrCountOutOfRange
    ensures ErrMessageTooLong != ErrCountNotInteger && ErrMessageTooLong != ErrCountOutOfRange
  {
    assert |ErrMessageRequired| == 26 && |ErrMessageNotString| == 34 && |ErrMessageTooLong| == 43;
    assert ErrMessageTooShort[10] != ErrMessageTooLong[10];
    assert ErrCountNotInteger[31] != ErrCountOutOfRange[31];
    assert ErrMessageTooShort[0] != ErrCountNotInteger[0];
    assert ErrMessageTooLong[0] != ErrCountNotInteger[0];
    assert ErrMessageTooShort[0] != ErrCountOutOfRange[0];
    assert ErrMessageTooLong[0] != ErrCountOutOfRange[0];
  }

  /** The message field's errors, which `validateRequest` pushes first, and
      the counter field's, which it pushes after them. */
  const MessageErrors: seq<string> := [ErrMessageRequired, ErrMessageNotString, ErrMessageTooShort, ErrMessageTooLong]
  const CountErrors: seq<string> := [ErrCountNotInteger, ErrCountOutOfRange]

  /** `validateRequest`: the message checks form one else-if chain and so do
      the counter checks, giving at most one error each. A string that passes
      the truthiness test is never empty, so the "minimum 1" error cannot
      arise. */
  function ValidateRequest(body: ChatBody): (errors: seq<string>)
    ensures errors == [] <==> MessageOk(body.message) && CountOk(body.promptcount)
    ensures |errors| == (if MessageOk(body.message) then 0 else 1) + (if CountOk(body.promptcount) then 0 else 1)
    ensures ErrMessageRequired in errors <==> !Truthy(body.message)
    ensures ErrMessageNotString in errors <==> Truthy(body.message) && !body.message.Str?
    ensures ErrMessageTooLong in errors <==> body.message.Str? && |body.message.s| > MaxMessageLength
    ensures ErrMessageTooShort !in errors
    ensures !MessageOk(body.message) ==> errors[0] in MessageErrors
    ensures !CountOk(body.promptcount) ==> errors[|errors| - 1] in CountErrors
    ensures ErrCountNotInteger in errors <==>
      !body.promptcount.Undefined? && !(body.promptcount.Num? && IsInteger(body.promptcount.n))
    ensures ErrCountOutOfRange in errors <==>
      body.promptcount.Num? && IsInteger(body.promptcount.n) && !(1.0 <= body.promptcount.n <= MaxPromptCount as real)
  {
    var m := body.message;
    var c := body.promptcount;
    var messageErrors :=
      if !Truthy(m) then [ErrMessageRequired]
      else if !m.Str? then [ErrMessageNotString]
      else if |m.s| < MinMessageLength then [ErrMessageTooShort]
      else if |m.s| > MaxMessageLength then [ErrMessageTooLong]
      else [];
    var countErrors :=
      if c.Undefined? then []
      else if !c.Num? || !IsInteger(c.n) then [ErrCountNotInteger]
      else if c.n < 1.0 || c.n > MaxPromptCount as real then [ErrCountOutOfRange]
      else [];
    MessagesDistinct();
    messageErrors + countErrors
  }

  /** `getSystemPrompt`: an absent or empty `x-prompt-id` header means the
      default assistant. */
  function ResolveId(header: Option<string>): (id: string)
    ensures id != ""
    ensures header.Some? && header.value != "" ==> id == header.value
    ensures header.None? || header == Some("") ==> id == PromptManager.DefaultPromptId
  {
    match header
    case Some(h) => if h != "" then h else PromptManager.DefaultPromptId
    case None => PromptManager.DefaultPromptId
  }

  /** The `promptcount = 1` default of the chat handler, on a validated
      counter. */
  function AuditCount(c: JsValue): (n: int)
    requires CountOk(c)
    ensures 1 <= n <= MaxPromptCount
    ensures c.Num? ==> n as real == c.n
    ensures c.Undefined? ==> n == 1
  {
    if c.Num? then c.n.Floor else 1
  }

  /** The `/api/chat` route (middleware, validation, generation, logging).
      `recordFailures` selects what the failure branch of the generator
      does with the metrics: `false` is the code as written, where the catch
      block's read of the try-scoped `startTime` throws before the metric is
      recorded; `true` is the evidently intended behaviour. */
  function Handle(s: State, header: Option<string>, body: ChatBody, outcome: Outcome,
                  now: int, elapsed: int, recordFailures: bool): (c: ChatStep)
    requires PromptManager.Valid(s.registry)
    ensures var id := ResolveId(header);
      var known := id in s.registry.prompts;
      && (!known ==> && c.state == s
                     && c.response == Response(400, UnknownPrompt(UnknownPromptError,
                                                    PromptManager.GetAvailablePrompts(s.registry))))
      && (known ==> && c.state.registry.current == s.registry.prompts[id]
                    && c.state.registry.history
                       == s.registry.history + [PromptManager.Transition(s.registry.current.id, Some(id), now)]
                    && c.state.registry.prompts == s.registry.prompts
                    && c.state.registry.order == s.registry.order)
      && (known && ValidateRequest(body) != [] ==>
            c.response == Response(400, ValidationFailed(ValidationError, ValidateRequest(body))))
      && (c.generatorInput.Some? <==> known && ValidateRequest(body) == [])
      && (c.generatorInput.Some? ==>
            c.generatorInput.value == s.registry.prompts[id].text + QuestionMarker + body.message.s)
      && (c.audit.Some? <==> c.response.status == 200)
      && (c.response.status == 200 <==> c.generatorInput.Some? && outcome.Candidate?)
      && (c.response.status == 200 ==>
            && c.response.body == Reply(outcome.text)
            && c.audit.value.question == body.message.s
            && c.audit.value.answer == outcome.text
            && CountOk(body.promptcount)
            && c.audit.value.promptCount == AuditCount(body.promptcount))
      && (c.generatorInput.Some? && !outcome.Candidate? ==> c.response == Response(500, Fallback(FallbackReply, ServerError)))
      && (c.generatorInput.None? ==> c.state.metrics == s.metrics)
      && (c.generatorInput.Some? && (outcome.Candidate? || outcome.NoText?) ==>
            c.state.metrics == PromptMonitoring.TrackPromptUsage(s.metrics, s.registry.prompts[id].id, elapsed, true))
  {
    var id := ResolveId(header);
    var (r1, ok) := PromptManager.SetPrompt(s.registry, Some(id), now);
    if !ok then
      ChatStep(s, Response(400, UnknownPrompt(UnknownPromptError, PromptManager.GetAvailablePrompts(s.registry))),
               None, None)
    else
      var errors := ValidateRequest(body);
      var s1 := s.(registry := r1);
      if errors != [] then
        ChatStep(s1, Response(400, ValidationFailed(ValidationError, errors)), None, None)
      else
        var message := body.message.s;
        var prompt := PromptManager.GetCurrentPrompt(r1);
        var input := prompt.text + QuestionMarker + message;
        match outcome
        case Candidate(text) =>
          var m := PromptMonitoring.TrackPromptUsage(s.metrics, prompt.id, elapsed, true);
          ChatStep(s1.(metrics := m), Response(200, Reply(text)), Some(input),
                   Some(AuditEvent(AuditCount(body.promptcount), message, text)))
        case NoText =>
          // success is recorded, then the handler's `substring` on the
          // missing text throws into the fallback branch
          var m := PromptMonitoring.TrackPromptUsage(s.metrics, prompt.id, elapsed, true);
          ChatStep(s1.(metrics := m), Response(500, Fallback(FallbackReply, ServerError)), Some(input), None)
        case _ =>
          var m := if recordFailures then PromptMonitoring.TrackPromptUsage(s.metrics, prompt.id, elapsed, false)
                   else s.metrics;
          ChatStep(s1.(metrics := m), Response(500, Fallback(FallbackReply, ServerError)), Some(input), None)
  }

  /** `/api/chat` as written: a failed generation records no metric at all,
      while a generator reply counts one more use of the resolved prompt. */
  function Chat(s: State, header: Option<string>, body: ChatBody, outcome: Outcome, now: int, elapsed: int)
    : (c: ChatStep)
    requires PromptManager.Valid(s.registry)
    ensures outcome.Failure() ==> c.state.metrics == s.metrics
    ensures c.generatorInput.Some? && (outcome.Candidate? || outcome.NoText?) && ResolveId(header) in s.registry.prompts ==>
      var id := s.registry.prompts[ResolveId(header)].id;
      && PromptMonitoring.Lookup(c.state.metrics, id).usageCount == PromptMonitoring.Lookup(s.metrics, id).usageCount + 1
      && PromptMonitoring.Lookup(c.state.metrics, id).successCount == PromptMonitoring.Lookup(s.metrics, id).successCount + 1
  {
    Handle(s, header, body, outcome, now, elapsed, false)
  }

  /** `/api/chat` with the failure metric recorded as the monitoring code
      intends: every generator call, good or bad, leaves one usage record. */
  function ChatIntended(s: State, header: Option<string>, body: ChatBody, outcome: Outcome, now: int, elapsed: int)
    : (c: ChatStep)
    requires PromptManager.Valid(s.registry)
    ensures c.generatorInput.Some? && ResolveId(header) in s.registry.prompts ==>
      var id := s.registry.prompts[ResolveId(header)].id;
      c.state.metrics == PromptMonitoring.TrackPromptUsage(s.metrics, id, elapsed, !outcome.Failure())
    ensures c.generatorInput.None? ==> c.state.metrics == s.metrics
  {
    Handle(s, header, body, outcome, now, elapsed, true)
  }

  /** Every request leaves the registry's key order in step with its table
      and every metrics record consistent, whichever failure policy. */
  lemma HandleKeepsInvariants(s: State, header: Option<string>, body: ChatBody, outcome: Outcome,
                              now: int, elapsed: int, recordFailures: bool)
    requires PromptManager.Valid(s.registry) && PromptMonitoring.Valid(s.metrics)
    ensures var c := Handle(s, header, body, outcome, now, elapsed, recordFailures);
      PromptManager.Valid(c.state.registry) && PromptMonitoring.Valid(c.state.metrics)
  {
    var id := ResolveId(header);
    if id in s.registry.prompts {
      var pid := s.registry.prompts[id].id;
      PromptMonitoring.TrackKeepsValid(s.metrics, pid, elapsed, true);
      PromptMonitoring.TrackKeepsValid(s.metrics, pid, elapsed, false);
    }
  }

  /** The documented round trip: "hello" with counter 1, default prompt,
      generator answering "hi there". */
  lemma HelloEndToEnd(s: State, now: int, elapsed: int)
    requires PromptManager.Valid(s.registry) && PromptManager.DefaultPromptId in s.registry.prompts
    ensures var c := Chat(s, None, ChatBody(Str("hello"), Num(1.0)), Candidate("hi there"), now, elapsed);
      var id := s.registry.prompts[PromptManager.DefaultPromptId].id;
      && c.response == Response(200, Reply("hi there"))
      && c.audit == Some(AuditEvent(1, "hello", "hi there"))
      && PromptMonitoring.Lookup(c.state.metrics, id).usageCount == PromptMonitoring.Lookup(s.metrics, id).usageCount + 1
      && PromptMonitoring.Lookup(c.state.metrics, id).successCount == PromptMonitoring.Lookup(s.metrics, id).successCount + 1
  {
    var body := ChatBody(Str("hello"), Num(1.0));
    assert MessageOk(body.message) && CountOk(body.promptcount);
  }

  /** A generator timeout on a valid request, as written: the fallback reply
      with status 500, and the failure count of the prompt does not move. */
  lemma TimeoutAsWritten(s: State, message: string, now: int, elapsed: int)
    requires PromptManager.Valid(s.registry) && PromptManager.DefaultPromptId in s.registry.prompts
    requires 1 <= |message| <= MaxMessageLength
    ensures var c := Chat(s, None, ChatBody(Str(message), Undefined), Timeout, now, elapsed);
      var id := s.registry.prompts[PromptManager.DefaultPromptId].id;
      && c.response == Response(500, Fallback(FallbackReply, ServerError))
      && c.audit.None?
      && PromptMonitoring.Lookup(c.state.metrics, id).errorCount == PromptMonitoring.Lookup(s.metrics, id).errorCount
  {
    assert MessageOk(Str(message));
  }

  /** The same timeout under the intended failure path: one more use and one
      more error for the prompt. */
  lemma TimeoutIntended(s: State, message: string, now: int, elapsed: int)
    requires PromptManager.Valid(s.registry) && PromptManager.DefaultPromptId in s.registry.prompts
    requires 1 <= |message| <= MaxMessageLength
    ensures var c := ChatIntended(s, None, ChatBody(Str(message), Undefined), Timeout, now, elapsed);
      var id := s.registry.prompts[PromptManager.DefaultPromptId].id;
      && c.response == Response(500, Fallback(FallbackReply, ServerError))
      && c.audit.None?
      && PromptMonitoring.Lookup(c.state.metrics, id).errorCount == PromptMonitoring.Lookup(s.metrics, id).errorCount + 1
      && PromptMonitoring.Lookup(c.state.metrics, id).usageCount == PromptMonitoring.Lookup(s.metrics, id).usageCount + 1
  {
    assert MessageOk(Str(message));
  }

  /** `/api/prompts/switch`: a known id becomes current and is logged; an
      unknown (or absent) one is refused with state untouched. */
  function Switch(s: State, promptId: Option<string>, now: int): (res: (State, Response))
    ensures var (s', resp) := res;
      var key := PromptManager.KeyOf(promptId);
      && s'.metrics == s.metrics
      && (resp.status == 200 <==> key in s.registry.prompts)
      && (resp.status == 200 ==>
            && s'.registry.current == s.registry.prompts[key]
            && resp.body == Switched(s.registry.prompts[key])
            && s'.registry.history
               == s.registry.history + [PromptManager.Transition(s.registry.current.id, promptId, now)]
            && s'.registry.prompts == s.registry.prompts
            && s'.registry.order == s.registry.order)
      && (resp.status != 200 ==> s' == s && resp == Response(400, SwitchFailed(SwitchError)))
  {
    var (r, ok) := PromptManager.SetPrompt(s.registry, promptId, now);
    if ok then (s.(registry := r), Response(200, Switched(PromptManager.GetCurrentPrompt(r))))
    else (s, Response(400, SwitchFailed(SwitchError)))
  }

  /** A prompt text the registration accepts, stated directly: within the
      length bounds and free of the forbidden words. */
  predicate Registrable(text: string)
  {
    PromptManager.MinPromptLength <= |text| <= PromptManager.MaxPromptLength
      && !PromptManager.HasForbiddenWord(text)
  }

  /** `/api/prompts/custom`: only the length and forbidden-word check guards
      registration; a non-string prompt makes that check throw, which the
      global error handler turns into a 500. */
  function CreateCustom(s: State, body: CustomBody): (res: (State, Response))
    requires PromptManager.Valid(s.registry)
    ensures var (s', resp) := res;
      && PromptManager.Valid(s'.registry)
      && s'.metrics == s.metrics
      && s'.registry.current == s.registry.current && s'.registry.history == s.registry.history
      && (!body.prompt.Str? ==> s' == s && resp == Response(500, InternalError(ServerError, HandlerMessage)))
      && (body.prompt.Str? ==> (resp.status == 200 <==> Registrable(body.prompt.s)))
      && (body.prompt.Str? && !Registrable(body.prompt.s) ==>
            && s' == s
            && resp == Response(400, CustomRejected(PromptManager.ValidatePromptText(body.prompt.s).issues)))
      && (resp.status == 200 ==>
            && resp.body.CustomCreated?
            && resp.body.prompt == PromptManager.Prompt(body.id, body.name, body.description, body.prompt.s,
                                                        PromptManager.CustomVersion, true)
            && s'.registry.prompts == s.registry.prompts[body.id := resp.body.prompt]
            && (body.id in s.registry.prompts ==> s'.registry.order == s.registry.order)
            && (body.id !in s.registry.prompts ==> s'.registry.order == s.registry.order + [body.id]))
  {
    match PromptManager.ValidatePrompt(body.prompt)
    case None => (s, Response(500, InternalError(ServerError, HandlerMessage)))
    case Some(v) =>
      if !v.isValid then (s, Response(400, CustomRejected(v.issues)))
      else
        var (r, p) := PromptManager.CreateCustomPrompt(s.registry, body.id, body.name, body.description, body.prompt.s);
        (s.(registry := r), Response(200, CustomCreated(p)))
  }

  /** A prompt shorter than 50 characters is refused for its length, whatever
      it says. */
  lemma ShortPromptRejected(s: State, body: CustomBody)
    requires PromptManager.Valid(s.registry)
    requires body.prompt.Str? && |body.prompt.s| < PromptManager.MinPromptLength
    ensures var (s', resp) := CreateCustom(s, body);
      && s' == s && resp.status == 400
      && PromptManager.IssueTooShort in resp.body.errors
  {
  }

  /** Registration never consults the security screen: a prompt carrying the
      role-override phrase, padded with text that has no Cyrillic letters to
      a registrable length, is stored although the screen rejects it. */
  lemma ScreenNotConsulted(s: State, id: string, name: string, description: string, pre: string, post: string)
    requires PromptManager.Valid(s.registry)
    requires forall k :: 0 <= k < |pre| ==> pre[k] as int < 0x0400
    requires forall k :: 0 <= k < |post| ==> post[k] as int < 0x0400
    requires PromptManager.MinPromptLength <= |pre| + |PromptSecurity.ForbiddenPhrases[0]| + |post| <= PromptManager.MaxPromptLength
    ensures var text := pre + PromptSecurity.ForbiddenPhrases[0] + post;
      && !PromptSecurity.ValidatePrompt(text).isValid
      && CreateCustom(s, CustomBody(id, name, description, Str(text))).1.status == 200
  {
    var phrase := PromptSecurity.ForbiddenPhrases[0];
    var text := pre + phrase + post;
    PromptSecurity.OverridePhraseRejected(pre, phrase, post);
    OverridePhraseRegistrable(pre, post);
  }

  /** The registration check passes such a prompt: it has the right length
      and no Cyrillic letter, so none of its forbidden words. */
  lemma OverridePhraseRegistrable(pre: string, post: string)
    requires forall k :: 0 <= k < |pre| ==> pre[k] as int < 0x0400
    requires forall k :: 0 <= k < |post| ==> post[k] as int < 0x0400
    requires PromptManager.MinPromptLength <= |pre| + |PromptSecurity.ForbiddenPhrases[0]| + |post| <= PromptManager.MaxPromptLength
    ensures Registrable(pre + PromptSecurity.ForbiddenPhrases[0] + post)
  {
    var phrase := PromptSecurity.ForbiddenPhrases[0];
    var text := pre + phrase + post;
    assert forall k :: 0 <= k < |phrase| ==> phrase[k] as int < 0x0400;
    forall k | 0 <= k < |text| ensures text[k] as int < 0x0400 {
      if k < |pre| {
        assert text[k] == pre[k];
      } else if k < |pre| + |phrase| {
        assert text[k] == phrase[k - |pre|];
      } else {
        assert text[k] == post[k - |pre| - |phrase|];
      }
    }
    PromptManager.NoCyrillicNoForbiddenWord(text);
  }
}

=== FILE: text.dfy ===
/** Character classes and string operations of JavaScript that the model
    needs: `toLowerCase` (restricted to the scripts the program's keywords
    use), the `\s` class, `trim`, `includes`, `indexOf` and a single
    string `replace`. */
module Text {
  import opened Base

  /** ECMAScript LineTerminator: the characters `.` does not match and `^`/`$`
      treat as line breaks under the `m` flag. */
  predicate IsLineTerminator(c: char)
  {
    c == '\n' || c == '\r' || c == '\U{2028}' || c == '\U{2029}'
  }

  /** ECMAScript WhiteSpace or LineTerminator: the `\s` class and the set
      `String.prototype.trim` removes. */
  predicate IsSpace(c: char)
  {
    || IsLineTerminator(c)
    || c == '\t' || c == '\U{000B}' || c == '\U{000C}' || c == ' '
    || c == '\U{00A0}' || c == '\U{FEFF}' || c == '\U{1680}'
    || ('\U{2000}' <= c <= '\U{200A}')
    || c == '\U{202F}' || c == '\U{205F}' || c == '\U{3000}'
  }

  predicate IsDigit(c: char)
  {
    '0' <= c <= '9'
  }

  /** `toLowerCase` on ASCII capitals and the Cyrillic capitals U+0400-U+042F;
      every other character is its own lower case in this model. */
  function LowerChar(c: char): (r: char)
    ensures 'A' <= c <= 'Z' ==> r as int == c as int + 32
    ensures 0x0410 <= c as int <= 0x042F ==> r as int == c as int + 32
    ensures 0x0400 <= c as int <= 0x040F ==> r as int == c as int + 80
    ensures IsSpace(r) <==> IsSpace(c)
    ensures IsDigit(r) <==> IsDigit(c)
    ensures 'a' <= r <= 'z' <==> 'a' <= c <= 'z' || 'A' <= c <= 'Z'
    ensures c as int < 0x0400 && !('A' <= c <= 'Z') ==> r == c
    ensures IsSpace(c) ==> r == c
  {
    if 'A' <= c <= 'Z' then (c as int + 32) as char
    else if '\U{0410}' <= c <= '\U{042F}' then (c as int + 32) as char
    else if '\U{0400}' <= c <= '\U{040F}' then (c as int + 80) as char
    else c
  }

  function Lower(s: string): (r: string)
    ensures |r| == |s|
    ensures forall i :: 0 <= i < |s| ==> r[i] == LowerChar(s[i])
  {
    seq(|s|, i requires 0 <= i < |s| => LowerChar(s[i]))
  }

  /** Lowering commutes with slicing, so a match found in a slice of the
      lowered text is a match in the lowered slice and back. */
  lemma LowerSlice(s: string, a: int, b: int)
    requires 0 <= a <= b <= |s|
    ensures Lower(s[a..b]) == Lower(s)[a..b]
  {
  }

  /** Text without capitals below the Cyrillic block lowers to itself. */
  lemma LowerFixes(s: string)
    requires forall i :: 0 <= i < |s| ==> s[i] as int < 0x0400 && !('A' <= s[i] <= 'Z')
    ensures Lower(s) == s
  {
  }

  /** Lowering twice is lowering once. */
  lemma LowerIdempotent(s: string)
    ensures Lower(Lower(s)) == Lower(s)
  {
    forall i | 0 <= i < |s| ensures LowerChar(LowerChar(s[i])) == LowerChar(s[i]) {
      var c := s[i];
      if '\U{0400}' <= c <= '\U{042F}' {
        assert LowerChar(c) as int >= 0x0430;
      }
    }
  }

  lemma LowerConcat(s: string, t: string)
    ensures Lower(s + t) == Lower(s) + Lower(t)
  {
  }

  predicate StartsWith(s: string, p: string)
  {
    |p| <= |s| && s[..|p|] == p
  }

  /** `s.includes(w)`. */
  predicate Occurs(w: string, s: string)
  {
    exists i :: 0 <= i <= |s| && StartsWith(s[i..], w)
  }

  /** An occurrence in a slice is an occurrence in the whole string. */
  lemma OccursInfix(w: string, q: string, a: int, b: int)
    requires 0 <= a <= b <= |q|
    requires Occurs(w, q[a..b])
    ensures Occurs(w, q)
  {
    var i :| 0 <= i <= b - a && StartsWith(q[a..b][i..], w);
    assert q[a..b][i..] == q[a + i..b];
    assert q[a + i..][..|w|] == q[a + i..b][..|w|];
    assert StartsWith(q[a + i..], w);
  }

  /** `s.indexOf(p)`: the first position at which `p` occurs, or `None`
      (JavaScript's -1). */
  function IndexOf(s: string, p: string): (r: Option<nat>)
    ensures r.Some? ==> r.value <= |s| && StartsWith(s[r.value..], p)
    ensures r.Some? ==> forall j :: 0 <= j < r.value ==> !StartsWith(s[j..], p)
    ensures r.None? <==> !Occurs(p, s)
    decreases |s|
  {
    if StartsWith(s, p) then Some(0)
    else if s == [] then None
    else match IndexOf(s[1..], p)
      case None =>
        assert forall i :: 1 <= i <= |s| ==> s[i..] == s[1..][i - 1..];
        None
      case Some(k) =>
        assert forall j :: 1 <= j <= k + 1 ==> s[j..] == s[1..][j - 1..];
        Some(k + 1)
  }

  /** `s.replace(p, rep)` with a string pattern: only the first occurrence is
      replaced (the replacement here never holds `$` patterns). */
  function ReplaceFirst(s: string, p: string, rep: string): (r: string)
    ensures !Occurs(p, s) ==> r == s
  {
    match IndexOf(s, p)
    case None => s
    case Some(i) => s[..i] + rep + s[i + |p|..]
  }

  /** Removing a prefix that `replace` finds at the very start recovers the
      rest exactly. */
  lemma {:induction false} ReplaceLeadingPrefix(p: string, rest: string)
    ensures ReplaceFirst(p + rest, p, "") == rest
  {
    assert StartsWith(p + rest, p);
    assert IndexOf(p + rest, p) == Some(0);
  }

  function TrimStart(s: string): (r: string)
    ensures |r| <= |s| && r == s[|s| - |r|..]
    ensures forall i :: 0 <= i < |s| - |r| ==> IsSpace(s[i])
    ensures r != [] ==> !IsSpace(r[0])
    ensures r == [] <==> forall i :: 0 <= i < |s| ==> IsSpace(s[i])
  {
    if s != [] && IsSpace(s[0]) then TrimStart(s[1..]) else s
  }

  function TrimEnd(s: string): (r: string)
    ensures |r| <= |s| && r == s[..|r|]
    ensures forall i :: |r| <= i < |s| ==> IsSpace(s[i])
    ensures r != [] ==> !IsSpace(r[|r| - 1])
    ensures r == [] <==> forall i :: 0 <= i < |s| ==> IsSpace(s[i])
  {
    if s != [] && IsSpace(s[|s| - 1]) then TrimEnd(s[..|s| - 1]) else s
  }

  /** `r` is `s` with some white space cut from the front (`a` characters)
      and the rest of the white space cut from the back. */
  predicate Between(s: string, r: string, a: int)
  {
    && 0 <= a && a + |r| <= |s| && r == s[a..a + |r|]
    && (forall i :: 0 <= i < a ==> IsSpace(s[i]))
    && (forall i :: a + |r| <= i < |s| ==> IsSpace(s[i]))
  }

  predicate DropsOnlySpace(s: string, r: string)
  {
    exists a :: 0 <= a <= |s| && Between(s, r, a)
  }

  /** `String.prototype.trim`. */
  function Trim(s: string): (r: string)
  {
    TrimEnd(TrimStart(s))
  }

  /** `trim` returns a contiguous piece of its input, drops only white space,
      and is empty exactly when the input is all white space. */
  lemma TrimSpec(s: string)
    ensures var r := Trim(s);
      && Occurs(r, s)
      && (r == [] <==> forall i :: 0 <= i < |s| ==> IsSpace(s[i]))
      && (r != [] ==> !IsSpace(r[0]) && !IsSpace(r[|r| - 1]))
      && DropsOnlySpace(s, r)
  {
    TrimDropsSpace(s);
    TrimInside(s);
    TrimBlank(s);
    TrimEnds(s);
  }

  /** Neither end of a non-empty trimmed text is white space. */
  lemma TrimEnds(s: string)
    ensures var r := Trim(s);
      r != [] ==> !IsSpace(r[0]) && !IsSpace(r[|r| - 1])
  {
    var t := TrimStart(s);
    var r := TrimEnd(t);
    if r != [] {
      assert r[0] == t[0];
    }
  }

  /** Only white space is dropped, from the front and from the back. */
  lemma TrimDropsSpace(s: string)
    ensures DropsOnlySpace(s, Trim(s))
  {
    var t := TrimStart(s);
    var r := TrimEnd(t);
    var a := |s| - |t|;
    assert r == s[a..a + |r|];
    forall i | a + |r| <= i < |s| ensures IsSpace(s[i]) {
      assert s[i] == t[i - a];
    }
    assert Between(s, r, a);
  }

  /** The trimmed text sits inside the input. */
  lemma TrimInside(s: string)
    ensures Occurs(Trim(s), s)
  {
    var t := TrimStart(s);
    var r := TrimEnd(t);
    var a := |s| - |t|;
    assert s[a..][..|r|] == r;
    assert StartsWith(s[a..], r);
  }

  /** Trimming leaves nothing exactly when the input is all white space. */
  lemma TrimBlank(s: string)
    ensures Trim(s) == [] <==> forall i :: 0 <= i < |s| ==> IsSpace(s[i])
  {
  }
}
